=== FILE: README.md ===
# Settlement and custody programs of OBSCURA-PRIVACY, in Dafny

This project models the authorization core of three Solana (Anchor) programs:

- **sip-settlement**. An authority and up to ten executors publish a Merkle root per batch. Anyone may *settle* a 32-byte commitment by proving that it is a leaf under the current root. Each commitment settles once, because settling creates a record account at an address derived from the commitment.
- **sip-vault**. This is a custody ledger. Deposits of SOL or SPL tokens each write a receipt carrying a Keccak-256 commitment. The authority or the settlement key withdraws against a commitment, and each commitment can be withdrawn against once. The vault tracks its SOL balance.
- **obscura_vault**. This is a claim vault. Anyone may deposit. Three claim paths exist: open, relayer and authority. The two nullifier paths refuse only the most recent nullifier.

Each instruction is a pure function from the accounts it touches to either new accounts or an error. A failed instruction changes nothing, because the runtime reverts it.

Anchor's account constraints run before the handler, so the model checks them first:

- An `init` account that already exists fails with `AccountAlreadyInUse`.
- A `has_one = authority` mismatch fails with `ConstraintHasOne`.
- An obscura `constraint = … @ Err` fails with its own error.

On top of the instructions there are instruction sequences (`Step`, `Run`, `Succeeded`), with these proofs over every run:

- the replay invariants;
- balance conservation;
- the counter invariants.

Modules:

| module | file | contents |
|---|---|---|
| `Bytes` | bytes.dfy | `u8`/`u64`/`i64`, 32-byte values, the account discriminator length, little-endian and two's-complement encodings, `Result` |
| `Merkle` | merkle.dfy | `hash_pair` and `verify_merkle_proof`, with index and soundness lemmas |
| `SettlementAccounts` | settlement_state.dfy | settlement state, `is_executor`, the executor-array invariant, account layouts |
| `Settlement` | settlement.dfy | the settlement instructions, runs, at-most-once settlement |
| `VaultAccounts` | vault_state.dfy | vault state, `is_authorized`, receipts and withdrawal records, layouts |
| `Vault` | vault.dfy | deposit commitment, vault instructions, runs, balance conservation, at-most-once withdrawal |
| `ObscuraVault` | obscura_vault.dfy | claim-vault instructions, the replay of older nullifiers, and a corrected guard |

How the environment enters the model:

- **Keccak-256** is a parameter `H: Hasher`. Every hashing operation and every property is stated for an arbitrary hash function.
- **Transfers** become a boolean `transferOk`. This covers system-program and SPL-token transfers and the direct lamport adjustment.
- **The clock** becomes a parameter `now`.
- **PDA bumps** become a parameter `bump`.
- **Counters.** Counters that the source increments with an unchecked `+= 1` carry a precondition that they are below 2^64 − 1. This applies to `batch_id`, `deposit_nonce`, `withdrawal_nonce`, `total_deposits` and `total_claims`.

Source paths below are relative to the repository root. `S` stands for `Backend/vault/backend/contracts/solana/programs/sip-settlement/src`, `V` for `Backend/vault/backend/contracts/solana/programs/sip-vault/src` and `O` for `Backend/vault/contracts/obscura_vault/src`. The table spells every path out in full.

Several behaviours differ from what the programs' names, comments or declared errors suggest. In each case the model follows the code:

- The vault's `is_authorized` accepts only the authority and the settlement key. There is no executor list (V/state.rs:44-46).
- `settle` needs no role. Any payer may settle a valid proof (S/instructions.rs:102-152).
- `authority_claim` is authority-only (O/lib.rs:295). The relayer cannot call it.
- `update_root` creates the next batch record, then checks the role, then the root. So a zero root from a non-executor fails `Unauthorized`, not `InvalidRoot`. On reachable states the batch record never exists yet (`Settlement.UpdateRootGating`).
- The settlement and vault admin instructions fail with Anchor's `ConstraintHasOne`, not the program's `Unauthorized`.
- A second settlement or withdrawal of the same commitment fails with the runtime's `AccountAlreadyInUse`. The handler never raises the declared `CommitmentAlreadyUsed`.
- Deposits check the pause flag before the amount.
- The vault has no instruction that cancels a pending authority transfer. Only the settlement program has one.
- `set_relayer` may be called any number of times, with any key.
- Interior nodes carry the 0x01 tag, but leaves are used as they are, with no leaf tag. So an interior node of a published tree verifies as a leaf one level up (`Merkle.InteriorNodeFoldsAsLeaf`). The source keeps this layout for compatibility with its off-chain tree builder (S/instructions.rs:296-298).

## Model

| member | source | states |
|---|---|---|
| Bytes.U64Bytes | Backend/vault/backend/contracts/solana/programs/sip-vault/src/instructions.rs:485-487 | `to_le_bytes` of a `u64` is 8 bytes whose little-endian value is the number |
| Bytes.I64Bytes | Backend/vault/backend/contracts/solana/programs/sip-vault/src/instructions.rs:488 | `to_le_bytes` of an `i64` is 8 bytes that decode back, in two's complement, to the same timestamp |
| Bytes.EncodeDecodeLE | Backend/vault/backend/contracts/solana/programs/sip-vault/src/instructions.rs:485-488 | little-endian encoding is the inverse of decoding at a fixed width |
| Bytes.I64BytesOfDecode | Backend/vault/backend/contracts/solana/programs/sip-vault/src/instructions.rs:488 | every 8-byte string is the encoding of the `i64` it decodes to |
| Bytes.U64BytesOfDecode | Backend/vault/backend/contracts/solana/programs/sip-vault/src/instructions.rs:485-487 | every 8-byte string is the encoding of the `u64` it decodes to |
| Merkle.HashPairPreimage | Backend/vault/backend/contracts/solana/programs/sip-settlement/src/instructions.rs:323-329 | the node preimage is 65 bytes: the tag 0x01, then the left child, then the right child |
| Merkle.HashPair | Backend/vault/backend/contracts/solana/programs/sip-settlement/src/instructions.rs:323-329 | a node is the hash of the byte 0x01, then the left child, then the right child |
| Merkle.HashPairPreimageInjective | Backend/vault/backend/contracts/solana/programs/sip-settlement/src/instructions.rs:323-329 | the preimage determines both children and their order |
| Merkle.SwappedPairDiffers | Backend/vault/backend/contracts/solana/programs/sip-settlement/src/instructions.rs:323-329 | swapping two distinct children changes what is hashed, so the left/right choice matters |
| Merkle.ComputeRoot | Backend/vault/backend/contracts/solana/programs/sip-settlement/src/instructions.rs:299-319 | an empty path leaves the leaf as it is; one sibling is hashed on the right of an even index and on the left of an odd one |
| Merkle.LastSiblingHashedLast | Backend/vault/backend/contracts/solana/programs/sip-settlement/src/instructions.rs:304-317 | the last sibling of a path is hashed last, on the side given by bit `proof.len() - 1` of the index |
| Merkle.InteriorNodeFoldsAsLeaf | Backend/vault/backend/contracts/solana/programs/sip-settlement/src/instructions.rs:305-317 | leaves carry no tag, so the node over `a` and `b` verifies at index `i` with the same root as leaf `a` at index `2i` with `b` prepended to the path |
| Merkle.VerifyMerkleProof | Backend/vault/backend/contracts/solana/programs/sip-settlement/src/instructions.rs:299-319 | the loop accepts exactly when folding the path from the leaf, sibling left on odd index, reaches the root; an empty path accepts exactly the root itself |
| Merkle.OnlyLowIndexBitsMatter | Backend/vault/backend/contracts/solana/programs/sip-settlement/src/instructions.rs:299-319 | only the low `proof.len()` bits of the leaf index affect the recomputed root |
| Merkle.ComputeRootAppend | Backend/vault/backend/contracts/solana/programs/sip-settlement/src/instructions.rs:299-319 | verifying a concatenated path is verifying the first part, then the second from the shifted index |
| Merkle.ForgedLeafYieldsCollision | Backend/vault/backend/contracts/solana/programs/sip-settlement/src/instructions.rs:299-329 | two different leaves that reach the same root along the same path yield two different preimages with equal hashes |
| SettlementAccounts.ScanSlots | Backend/vault/backend/contracts/solana/programs/sip-settlement/src/instructions.rs:171-175 | the duplicate scan finds the key exactly when it is among the scanned live slots |
| SettlementAccounts.IsExecutor | Backend/vault/backend/contracts/solana/programs/sip-settlement/src/state.rs:46-56 | a key is an executor exactly when it is the authority or one of the first `executor_count` slots; slots beyond the count are never read |
| SettlementAccounts.IndexOf | Backend/vault/backend/contracts/solana/programs/sip-settlement/src/instructions.rs:194-201 | the search finds the first live slot holding the key, or reports that none does |
| SettlementAccounts.ConcatSlices | Backend/vault/backend/contracts/solana/programs/sip-settlement/src/state.rs:13-34 | executor `i` of the fixed array occupies bytes `32i` to `32i+32` of its serialisation |
| SettlementAccounts.EncodeSettlementState | Backend/vault/backend/contracts/solana/programs/sip-settlement/src/state.rs:37-44 | the state serialises to `LEN` = 434 bytes: the discriminator, then authority, pending authority, current root, batch id, executor count, the ten executor slots and the bump, each at its fixed offset |
| SettlementAccounts.EncodeUsedCommitment | Backend/vault/backend/contracts/solana/programs/sip-settlement/src/state.rs:61-85 | the replay record serialises to `LEN` = 89 bytes: the discriminator, then commitment, batch id, settlement time, executor and bump, each at its fixed offset |
| SettlementAccounts.EncodeBatchRoot | Backend/vault/backend/contracts/solana/programs/sip-settlement/src/state.rs:89-113 | the history record serialises to `LEN` = 89 bytes: the discriminator, then batch id, root, creation time, executor and bump, each at its fixed offset |
| Settlement.Initialize | Backend/vault/backend/contracts/solana/programs/sip-settlement/src/instructions.rs:32-44 | a fresh ledger is valid, with no executor slot in use, all ten slots the default key, the bump stored, no pending transfer, batch 0 and no records; the signer is the only key that passes the executor check |
| Settlement.UpdateRoot | Backend/vault/backend/contracts/solana/programs/sip-settlement/src/instructions.rs:47-99 | an existing next batch record fails first, then non-executors fail `Unauthorized`, then a zero root fails `InvalidRoot`; success raises the batch id by one, makes the root current and records it under the new id, changing nothing else |
| Settlement.Settle | Backend/vault/backend/contracts/solana/programs/sip-settlement/src/instructions.rs:102-152 | a settled commitment fails first, then an empty or over-32 proof, then a proof that misses the current root fails `InvalidProof`; success exactly when the proof reaches the current root, which records the commitment with the current batch id |
| Settlement.AddExecutor | Backend/vault/backend/contracts/solana/programs/sip-settlement/src/instructions.rs:154-189 | authority only; a duplicate is refused before capacity; success appends the key to the live executors, touches nothing else and keeps the executor invariant |
| Settlement.SwapRemove | Backend/vault/backend/contracts/solana/programs/sip-settlement/src/instructions.rs:205-211 | the count drops by one, the freed last slot becomes the default key, the old last key moves into the removed position, every other slot and every other field is unchanged |
| Settlement.SwapRemoveLive | Backend/vault/backend/contracts/solana/programs/sip-settlement/src/instructions.rs:203-210 | swap-removal takes exactly one occurrence of the removed key out of the live executors |
| Settlement.SwapRemoveValid | Backend/vault/backend/contracts/solana/programs/sip-settlement/src/instructions.rs:203-210 | swap-removal keeps the count bounded, the live keys distinct and the freed slot zero |
| Settlement.RemoveExecutor | Backend/vault/backend/contracts/solana/programs/sip-settlement/src/instructions.rs:191-215 | authority only; an absent key fails `ExecutorNotFound`; success is the swap-removal at the key's first live slot, so the last live executor moves into the gap and the freed slot becomes the default key; exactly that key leaves the live executors, as a multiset, and the invariant is kept |
| Settlement.TransferAuthority | Backend/vault/backend/contracts/solana/programs/sip-settlement/src/instructions.rs:217-239 | authority only; the default key is refused; success only records the pending authority |
| Settlement.AcceptAuthority | Backend/vault/backend/contracts/solana/programs/sip-settlement/src/instructions.rs:241-272 | with no pending key it fails `NoPendingTransfer`, from anyone but the pending key it fails `Unauthorized`; success makes it the authority and clears it |
| Settlement.CancelAuthorityTransfer | Backend/vault/backend/contracts/solana/programs/sip-settlement/src/instructions.rs:274-294 | authority only; clears the pending key |
| Settlement.UpdateRootGating | Backend/vault/backend/contracts/solana/programs/sip-settlement/src/instructions.rs:72-99 | on a reachable ledger a root rotation succeeds exactly for an executor with a non-zero root |
| Settlement.ProofBoundsCheckedBeforeHashing | Backend/vault/backend/contracts/solana/programs/sip-settlement/src/instructions.rs:133-140 | an empty or over-long proof fails whatever the hash function is |
| Settlement.SettleNeedsNoRole | Backend/vault/backend/contracts/solana/programs/sip-settlement/src/instructions.rs:102-124 | whether settlement succeeds does not depend on who pays |
| Settlement.AddThenRemoveRestores | Backend/vault/backend/contracts/solana/programs/sip-settlement/src/instructions.rs:168-215 | adding an executor and then removing it gives back exactly the original state |
| Settlement.TwoStepHandover | Backend/vault/backend/contracts/solana/programs/sip-settlement/src/instructions.rs:231-294 | after a proposal only the proposed key can accept; cancelling leaves nothing to accept |
| Settlement.Step | Backend/vault/backend/contracts/solana/programs/sip-settlement/src/instructions.rs:32-294 | every successful instruction keeps the ledger valid, never forgets a settled commitment, moves the batch id by at most one and never makes the authority the default key |
| Settlement.Run | Backend/vault/backend/contracts/solana/programs/sip-settlement/src/instructions.rs:32-294 | over any run, the ledger stays valid and the set of settled commitments only grows |
| Settlement.SettleAtMostOnce | Backend/vault/backend/contracts/solana/programs/sip-settlement/src/instructions.rs:102-152 | along any run each commitment is settled at most once, and not at all if it was settled before |
| Settlement.RotateAndSettleScenario | Backend/vault/backend/contracts/solana/programs/sip-settlement/src/instructions.rs:47-152 | the example life cycle: a stranger cannot rotate; once added it can; the proved leaf settles once and its replay fails |
| VaultAccounts.EncodeVaultState | Backend/vault/backend/contracts/solana/programs/sip-vault/src/state.rs:34-42 | the vault state serialises to `LEN` = 130 bytes: the discriminator, then authority, pending authority, settlement key, balance, both nonces, the pause flag as 0 or 1, and the bump, each at its fixed offset |
| VaultAccounts.EncodeUsedCommitment | Backend/vault/backend/contracts/solana/programs/sip-vault/src/state.rs:51-79 | the withdrawal record serialises to `LEN` = 121 bytes: the discriminator, then commitment, time, executor, amount, recipient and bump, each at its fixed offset |
| VaultAccounts.EncodeDepositRecord | Backend/vault/backend/contracts/solana/programs/sip-vault/src/state.rs:83-115 | the receipt serialises to `LEN` = 129 bytes: the discriminator, then commitment, depositor, amount, mint, time, nonce and bump, each at its fixed offset |
| VaultAccounts.IsAuthorized | Backend/vault/backend/contracts/solana/programs/sip-vault/src/state.rs:44-46 | the authority and the settlement key are authorised to withdraw, and no other key is |
| Vault.DepositTagIsAscii | Backend/vault/backend/contracts/solana/programs/sip-vault/src/instructions.rs:483 | the commitment tag is the ASCII of `SIP_DEPOSIT` |
| Vault.ComputeDepositCommitment | Backend/vault/backend/contracts/solana/programs/sip-vault/src/instructions.rs:475-490 | the commitment hashes a preimage from which depositor, amount, mint, nonce and timestamp are read back unchanged |
| Vault.DepositPreimage | Backend/vault/backend/contracts/solana/programs/sip-vault/src/instructions.rs:475-490 | the commitment preimage is 99 bytes |
| Vault.DepositPreimageRoundTrip | Backend/vault/backend/contracts/solana/programs/sip-vault/src/instructions.rs:475-490 | parsing the preimage recovers depositor, amount, mint, nonce and timestamp |
| Vault.ParseThenSerialise | Backend/vault/backend/contracts/solana/programs/sip-vault/src/instructions.rs:475-490 | every string the parser accepts is the preimage of the fields it reads |
| Vault.DepositPreimageInjective | Backend/vault/backend/contracts/solana/programs/sip-vault/src/instructions.rs:475-490 | different deposits, for example different nonces, hash different preimages |
| Vault.Initialize | Backend/vault/backend/contracts/solana/programs/sip-vault/src/instructions.rs:35-48 | a fresh vault is valid, empty and unpaused, with both nonces zero, no pending authority, no receipts or withdrawal records, and exactly the signer authorised |
| Vault.DepositNative | Backend/vault/backend/contracts/solana/programs/sip-vault/src/instructions.rs:52-125 | an existing next receipt fails first, then paused, then zero amount, then a failed transfer fails `TransferFailed`, then `Overflow`; success exactly when the transfer works and the balance does not overflow, and it writes the full native receipt for the next nonce (commitment, depositor, amount, default mint, time, nonce, bump) and raises the balance by the amount |
| Vault.DepositToken | Backend/vault/backend/contracts/solana/programs/sip-vault/src/instructions.rs:129-203 | the same guards, `TransferFailed` included, without the balance; success writes the full receipt (commitment, depositor, amount, mint, time, nonce, bump) and leaves the tracked SOL balance alone |
| Vault.WithdrawNative | Backend/vault/backend/contracts/solana/programs/sip-vault/src/instructions.rs:207-274 | a used commitment fails first, then unauthorised, paused, zero amount, insufficient balance and a failed transfer (`TransferFailed`); success lowers the balance by the amount, bumps the withdrawal nonce and records the commitment |
| Vault.WithdrawToken | Backend/vault/backend/contracts/solana/programs/sip-vault/src/instructions.rs:278-352 | the same guards, `TransferFailed` included, without the balance check; success records the commitment and bumps only the withdrawal nonce |
| Vault.SetSettlement | Backend/vault/backend/contracts/solana/programs/sip-vault/src/instructions.rs:356-376 | authority only; replaces the settlement key with any key |
| Vault.TransferAuthority | Backend/vault/backend/contracts/solana/programs/sip-vault/src/instructions.rs:378-399 | authority only; the default key is refused; success only records the pending key |
| Vault.AcceptAuthority | Backend/vault/backend/contracts/solana/programs/sip-vault/src/instructions.rs:401-431 | with no pending key it fails `NoPendingTransfer`, from anyone but the pending key it fails `Unauthorized`; success hands over and clears it |
| Vault.SetPaused | Backend/vault/backend/contracts/solana/programs/sip-vault/src/instructions.rs:433-471 | authority only; sets the pause flag and nothing else |
| Vault.Pause | Backend/vault/backend/contracts/solana/programs/sip-vault/src/instructions.rs:433-451 | succeeds exactly for the authority, otherwise fails `ConstraintHasOne`; sets the pause flag and changes nothing else |
| Vault.Unpause | Backend/vault/backend/contracts/solana/programs/sip-vault/src/instructions.rs:453-471 | succeeds exactly for the authority, otherwise fails `ConstraintHasOne`; clears the pause flag and changes nothing else |
| Vault.DepositStep | Backend/vault/backend/contracts/solana/programs/sip-vault/src/instructions.rs:77-203 | a successful deposit keeps the ledger valid, raises the deposit nonce by one and moves the balance by the native amount only |
| Vault.WithdrawStep | Backend/vault/backend/contracts/solana/programs/sip-vault/src/instructions.rs:236-352 | a successful withdrawal consumes a fresh commitment, keeps the ledger valid and lowers the balance by the native amount only |
| Vault.AdminStep | Backend/vault/backend/contracts/solana/programs/sip-vault/src/instructions.rs:369-471 | the administrative instructions never touch the balance, the nonces, the receipts or the withdrawal records |
| Vault.Step | Backend/vault/backend/contracts/solana/programs/sip-vault/src/instructions.rs:35-471 | each successful instruction moves the balance by exactly its native delta and each nonce by one exactly for its kind |
| Vault.SetSettlementGovernsWithdrawal | Backend/vault/backend/contracts/solana/programs/sip-vault/src/state.rs:44-46 | after `set_settlement` the new key may withdraw and a replaced key that is not the authority may not |
| Vault.PauseUnpauseRestores | Backend/vault/backend/contracts/solana/programs/sip-vault/src/instructions.rs:446-471 | pausing and then unpausing gives back the same state |
| Vault.TwoStepHandover | Backend/vault/backend/contracts/solana/programs/sip-vault/src/instructions.rs:378-431 | after a proposal only the proposed key can accept; acceptance takes the admin instructions from the old authority; a new proposal replaces the old one |
| Vault.Run | Backend/vault/backend/contracts/solana/programs/sip-vault/src/instructions.rs:35-471 | over any run the ledger stays valid: one receipt per nonce, and each withdrawal record under its own commitment |
| Vault.RunAccounting | Backend/vault/backend/contracts/solana/programs/sip-vault/src/instructions.rs:99-102 | over any run, the tracked balance changes by exactly the native deposits minus the native withdrawals that succeeded, and each nonce counts its successful operations |
| Vault.BalanceFromInitialize | Backend/vault/backend/contracts/solana/programs/sip-vault/src/instructions.rs:257-260 | from a fresh vault the balance equals successful native deposits minus successful native withdrawals |
| Vault.WithdrawAtMostOnce | Backend/vault/backend/contracts/solana/programs/sip-vault/src/instructions.rs:217-224 | along any run, on either path, each commitment is withdrawn against at most once, and never if used before |
| Vault.NativeThenTokenRejected | Backend/vault/backend/contracts/solana/programs/sip-vault/src/instructions.rs:288-295 | a commitment withdrawn natively cannot then be withdrawn as tokens |
| Vault.DepositWithdrawScenario | Backend/vault/backend/contracts/solana/programs/sip-vault/src/instructions.rs:77-274 | the example life cycle: paused deposit fails; deposit 100; withdraw 150 fails; withdraw 100 empties the vault; the replay fails |
| ObscuraVault.EncodeObscuraState | Backend/vault/contracts/obscura_vault/src/lib.rs:342-355 | the state serialises to 8 + `INIT_SPACE` = 154 bytes: the discriminator, then authority, relayer, both counters, last commitment, last nullifier, bump and the pause flag as 0 or 1, each at its fixed offset |
| ObscuraVault.Initialize | Backend/vault/contracts/obscura_vault/src/lib.rs:11-23 | the signer is authority and relayer; the bump is stored; the counters and the never-written nullifier and commitment are zero |
| ObscuraVault.SetRelayer | Backend/vault/contracts/obscura_vault/src/lib.rs:26-33 | authority only, failing `Unauthorized`; replaces the relayer with any key |
| ObscuraVault.SetPaused | Backend/vault/contracts/obscura_vault/src/lib.rs:211-224 | authority only, failing `Unauthorized`; sets the flag |
| ObscuraVault.Pause | Backend/vault/contracts/obscura_vault/src/lib.rs:211-216 | succeeds exactly for the authority, otherwise fails `Unauthorized`; sets the pause flag and changes nothing else |
| ObscuraVault.Unpause | Backend/vault/contracts/obscura_vault/src/lib.rs:219-224 | succeeds exactly for the authority, otherwise fails `Unauthorized`; clears the pause flag and changes nothing else |
| ObscuraVault.Deposit | Backend/vault/contracts/obscura_vault/src/lib.rs:36-71 | paused fails first, then zero amount, then a failed transfer (`TransferFailed`); success only counts the deposit, and the commitment is not stored |
| ObscuraVault.Claim | Backend/vault/contracts/obscura_vault/src/lib.rs:75-125 | paused, zero amount, then a nullifier equal to the last one, then a failed transfer (`TransferFailed`) fail in that order; success counts the claim and records the nullifier and the commitment |
| ObscuraVault.RelayerClaim | Backend/vault/contracts/obscura_vault/src/lib.rs:161-208 | anyone but the stored relayer fails `UnauthorizedRelayer`; the relayer gets exactly the open claim's outcome |
| ObscuraVault.AuthorityClaim | Backend/vault/contracts/obscura_vault/src/lib.rs:128-157 | authority only, then paused, zero amount and a failed transfer (`TransferFailed`); no nullifier check; success counts the claim and records the commitment, leaving the last nullifier as it was |
| ObscuraVault.ClaimIgnoresSigner | Backend/vault/contracts/obscura_vault/src/lib.rs:75-89 | the open claim's outcome does not depend on who signs |
| ObscuraVault.ZeroNullifierRefusedAfterInitialize | Backend/vault/contracts/obscura_vault/src/lib.rs:11-23 | on a fresh vault the all-zero nullifier cannot be claimed |
| ObscuraVault.SetRelayerGovernsRelayerClaim | Backend/vault/contracts/obscura_vault/src/lib.rs:314 | after `set_relayer` exactly the new relayer can use the relayer path, with the open claim's outcome |
| ObscuraVault.PauseUnpauseRestores | Backend/vault/contracts/obscura_vault/src/lib.rs:211-224 | while paused every deposit and claim fails `VaultPaused`; unpausing restores the state |
| ObscuraVault.Run | Backend/vault/contracts/obscura_vault/src/lib.rs:11-224 | no run of instructions changes the authority: there is no handover in this program |
| ObscuraVault.Step | Backend/vault/contracts/obscura_vault/src/lib.rs:11-224 | each success moves the deposit or claim counter by one for its kind, keeps the authority, and changes the last nullifier only on a nullifier claim, to a new value |
| ObscuraVault.RunCounters | Backend/vault/contracts/obscura_vault/src/lib.rs:57-151 | over any run the counters equal the numbers of successful deposits and claims |
| ObscuraVault.ImmediateReplayRefused | Backend/vault/contracts/obscura_vault/src/lib.rs:86-89 | the same nullifier twice in a row fails `NullifierAlreadyUsed` |
| ObscuraVault.OlderNullifierReplays | Backend/vault/contracts/obscura_vault/src/lib.rs:86-108 | claims with `n1`, `n2`, `n1` from a fresh vault all succeed: `n1` is paid twice |
| ObscuraVault.GuardedNullifierClaim | Backend/vault/contracts/obscura_vault/src/lib.rs:81-109 | with a spent set, a nullifier claimed before fails, and after it a failed transfer (`TransferFailed`); success adds the nullifier to the set and updates the state as the program does |
| ObscuraVault.GuardedStep | Backend/vault/contracts/obscura_vault/src/lib.rs:75-208 | the spent set only grows, and each nullifier claim consumes a fresh nullifier |
| ObscuraVault.GuardedClaimAtMostOnce | Backend/vault/contracts/obscura_vault/src/lib.rs:86-108 | with the spent set, each nullifier is claimed at most once along any run |
| ObscuraVault.GuardedRefusesOlderNullifier | Backend/vault/contracts/obscura_vault/src/lib.rs:86-108 | the `n1`, `n2`, `n1` replay is refused by the spent set |
| ObscuraVault.GuardedInitializeLastNullifierSpent | Backend/vault/contracts/obscura_vault/src/lib.rs:11-23 | a fresh guarded vault has the zero last nullifier, so the refinement's condition holds from the start |
| ObscuraVault.GuardedStepKeepsLastNullifierSpent | Backend/vault/contracts/obscura_vault/src/lib.rs:75-224 | every successful guarded instruction keeps the last nullifier zero or spent, so the condition holds on every reachable guarded state |
| ObscuraVault.GuardedClaimRefines | Backend/vault/contracts/obscura_vault/src/lib.rs:75-125 | on every reachable guarded state (the last nullifier is zero or spent), the corrected claim accepts nothing the program refuses, apart from a first zero nullifier, and produces the same state |

## Left out

- Transfers are left out: the system-program transfer, the SPL-token transfer and the direct lamport adjustment. Their success or failure is the `transferOk` input. Actual lamport and token balances of accounts are not tracked. The vault's `sol_balance` field is tracked.
- Keccak-256 internals are left out: it is the parameter `H`. The Merkle soundness statement is relative to that function: a forged proof yields a collision.
- `Clock::get` is left out. The timestamp is the input `now`, and the model assumes the clock call succeeds.
- PDA derivation and bump search, seeds checks, the account discriminator check, rent and the payer's lamports for `init` are left out. An `init` is modelled only as "fails if the account exists".
- Re-running `initialize` on an existing state account is not modelled. It fails in the runtime as `AccountAlreadyInUse`.
- Logging (`msg!`) and events (`emit!`) are left out, because they are side effects with no stored state.
- The `lib.rs` dispatchers of both sip programs are left out. They only forward to the handlers.
- `declare_id!` and the error message strings are left out.
- `TokenVault` (V/state.rs:118-139) is left out, because no instruction uses it.
- The fuzz tests are not part of this model.
- `deposit_token` takes the mint from the depositor's token account, and the model takes it as an input. Whether the two token accounts belong to the vault is not checked in the source and not modelled.
- Settlement.UpdateRoot, Settlement.Step, Settlement.Run, Vault.DepositNative, Vault.DepositToken, Vault.WithdrawNative, Vault.WithdrawToken, Vault.Step, ObscuraVault.Deposit, ObscuraVault.Claim, ObscuraVault.RelayerClaim and ObscuraVault.AuthorityClaim require each counter they raise to be below 2^64 − 1. The source's unchecked `+= 1` would panic or wrap there, and which one depends on build flags the model does not fix.
- Vault.WithdrawNative does not model the unreachable `Overflow` from `checked_sub`. The balance check just before it rules that error out.
- `VaultError::InvalidRecipient`, `VaultError::InvalidCommitment` and both programs' `CommitmentAlreadyUsed` are declared, but no handler raises them. They are in the error types and never produced.

## Findings

| source | as written | input that shows it | evidently intended | confidence | as-written member | corrected member |
|---|---|---|---|---|---|---|
| Backend/vault/contracts/obscura_vault/src/lib.rs:86-108 | `claim` and `relayer_claim` refuse a nullifier only when it equals the single stored `last_nullifier`, then overwrite that field | from a fresh vault, claims with nullifiers `n1`, `n2`, `n1` (distinct, non-zero, amount 1) all succeed, paying `n1` twice | a nullifier is accepted at most once, as the two sip programs do for commitments with one record account each | not executed | ObscuraVault.OlderNullifierReplays | ObscuraVault.GuardedClaimAtMostOnce |

=== FILE: bytes.dfy ===
/** Fixed-width integers, 32-byte values, little-endian encoding and the
    failure-compatible result type shared by the three programs.

    Rust's `u8`, `u64` and `i64` are modelled as subset types of `int`, so a
    value outside the Rust range cannot be built; counters that the programs
    increment with an unchecked `+= 1` carry an explicit precondition instead
    of a guessed wrap-around or panic. */
module Bytes {

  const TWO_63: int := 0x8000_0000_0000_0000
  const TWO_64: int := 0x1_0000_0000_0000_0000
  const U64_MAX: int := TWO_64 - 1

  type byte = x: int | 0 <= x < 0x100
  /** Rust's `u8` where it is a number (a bump seed, a count) rather than a byte of data. */
  type u8 = byte
  type u64 = x: int | 0 <= x < 0x1_0000_0000_0000_0000
  type i64 = x: int | -0x8000_0000_0000_0000 <= x < 0x8000_0000_0000_0000

  /** A 32-byte value: a public key, a Merkle node, a commitment or a nullifier. */
  type Bytes32 = b: seq<byte> | |b| == 32
    witness [0, 0, 0, 0, 0, 0, 0, 0, 0, 0, 0, 0, 0, 0, 0, 0, 0, 0, 0, 0, 0, 0, 0, 0, 0, 0, 0, 0, 0, 0, 0, 0]

  /** `Pubkey::default()` and `[0u8; 32]`: the all-zero value. */
  const ZERO32: Bytes32 :=
    [0, 0, 0, 0, 0, 0, 0, 0, 0, 0, 0, 0, 0, 0, 0, 0, 0, 0, 0, 0, 0, 0, 0, 0, 0, 0, 0, 0, 0, 0, 0, 0]

  /** Every Anchor account begins with an 8-byte discriminator. */
  const DISCRIMINATOR_LEN: nat := 8

  /** Keccak-256 as used by `keccak::hash`. Its internals are not modelled:
      every operation that hashes takes the hash function as a parameter, so
      everything proved here holds for any function of this type. */
  type Hasher = seq<byte> -> Bytes32

  /** The outcome of one instruction. A failure carries the error and no
      state, because the host reverts every effect of a failed instruction. */
  datatype Result<+T, +E> = Ok(value: T) | Err(error: E) {
    predicate IsFailure() {
      Err?
    }

    function PropagateFailure<U>(): Result<U, E>
      requires Err?
    {
      Err(error)
    }

    function Extract(): T
      requires Ok?
    {
      value
    }

    /** Applies `f` to a success and passes a failure through untouched. */
    function Map<U>(f: T -> U): (r: Result<U, E>)
      ensures r.Ok? <==> Ok?
      ensures Ok? ==> r.value == f(value)
      ensures Err? ==> r.error == error
    {
      if Ok? then Ok(f(value)) else Err(error)
    }
  }

  datatype Option<+T> = None | Some(value: T)

  function Pow256(n: nat): (r: nat)
    ensures r > 0
  {
    if n == 0 then 1 else 256 * Pow256(n - 1)
  }

  lemma Pow256Of8()
    ensures Pow256(8) == TWO_64
  {
    calc {
      Pow256(8);
      256 * Pow256(7);
      256 * 256 * Pow256(6);
      256 * 256 * 256 * Pow256(5);
      256 * 256 * 256 * 256 * Pow256(4);
      256 * 256 * 256 * 256 * 256 * Pow256(3);
      256 * 256 * 256 * 256 * 256 * 256 * Pow256(2);
      256 * 256 * 256 * 256 * 256 * 256 * 256 * Pow256(1);
      256 * 256 * 256 * 256 * 256 * 256 * 256 * 256 * Pow256(0);
    }
  }

  /** The unsigned value of a little-endian byte string. */
  function DecodeLE(b: seq<byte>): (r: nat)
    ensures r < Pow256(|b|)
  {
    if |b| == 0 then 0 else b[0] + 256 * DecodeLE(b[1..])
  }

  /** The low `width` bytes of `x`, least significant first (`to_le_bytes`). */
  function EncodeLE(x: nat, width: nat): (r: seq<byte>)
    requires x < Pow256(width)
    ensures |r| == width
    ensures DecodeLE(r) == x
  {
    if width == 0 then [] else [x % 256] + EncodeLE(x / 256, width - 1)
  }

  /** Decoding then re-encoding at the same width gives back the bytes. */
  lemma {:induction false} EncodeDecodeLE(b: seq<byte>)
    ensures EncodeLE(DecodeLE(b), |b|) == b
  {
    if |b| > 0 {
      EncodeDecodeLE(b[1..]);
      var x := DecodeLE(b);
      assert x % 256 == b[0];
      assert x / 256 == DecodeLE(b[1..]);
    }
  }

  /** Two little-endian strings of the same width with equal values are equal. */
  lemma DecodeLEInjective(a: seq<byte>, b: seq<byte>)
    requires |a| == |b| && DecodeLE(a) == DecodeLE(b)
    ensures a == b
  {
    EncodeDecodeLE(a);
    EncodeDecodeLE(b);
  }

  /** `u64::to_le_bytes`. */
  function U64Bytes(x: u64): (r: seq<byte>)
    ensures |r| == 8
    ensures DecodeLE(r) == x
  {
    Pow256Of8();
    EncodeLE(x, 8)
  }

  /** The two's-complement bit pattern of an `i64`, read as an unsigned number. */
  function TwosComplement64(t: i64): (u: nat)
    ensures u < TWO_64
    ensures t >= 0 ==> u == t
    ensures t < 0 ==> u == t + TWO_64
  {
    t % TWO_64
  }

  /** The `i64` whose two's-complement pattern is the 8-byte string `b`. */
  function DecodeI64(b: seq<byte>): i64
    requires |b| == 8
  {
    Pow256Of8();
    var u := DecodeLE(b);
    if u >= TWO_63 then u - TWO_64 else u
  }

  /** `i64::to_le_bytes`: the two's-complement pattern, least significant byte first. */
  function I64Bytes(t: i64): (r: seq<byte>)
    ensures |r| == 8
    ensures DecodeI64(r) == t
  {
    Pow256Of8();
    EncodeLE(TwosComplement64(t), 8)
  }

  /** Every 8-byte string is the encoding of the `i64` it decodes to. */
  lemma I64BytesOfDecode(b: seq<byte>)
    requires |b| == 8
    ensures I64Bytes(DecodeI64(b)) == b
  {
    Pow256Of8();
    assert TwosComplement64(DecodeI64(b)) == DecodeLE(b);
    EncodeDecodeLE(b);
  }

  /** Every 8-byte string is the encoding of the `u64` it decodes to. */
  lemma U64BytesOfDecode(b: seq<byte>)
    requires |b| == 8
    ensures DecodeLE(b) < TWO_64
    ensures U64Bytes(DecodeLE(b)) == b
  {
    Pow256Of8();
    DecodeLEInjective(U64Bytes(DecodeLE(b)), b);
  }
}

=== FILE: merkle.dfy ===
/** The settlement program's Merkle verifier (`verify_merkle_proof` and
    `hash_pair`).

    An interior node is the hash of `0x01 || left || right`, the interior-node
    prefix of section 2.1 of RFC 6962. Leaves are NOT hashed with RFC 6962's
    `0x00` leaf prefix: the 32-byte commitment itself is the bottom node. */
module Merkle {
  import opened Bytes

  /** Domain-separation byte that marks an interior node. */
  const NODE_TAG: byte := 0x01

  /** The 65 bytes hashed for an interior node. */
  function HashPairPreimage(left: Bytes32, right: Bytes32): (r: seq<byte>)
    ensures |r| == 65
    ensures r[0] == NODE_TAG && r[1..33] == left && r[33..65] == right
  {
    [NODE_TAG] + left + right
  }

  /** `hash_pair`: the hash of the interior-node tag followed by the left
      child and then the right child. */
  function HashPair(H: Hasher, left: Bytes32, right: Bytes32): (r: Bytes32)
    ensures r == H([0x01] + left + right)
  {
    H(HashPairPreimage(left, right))
  }

  /** The preimage determines both children, in order. */
  lemma HashPairPreimageInjective(a: Bytes32, b: Bytes32, c: Bytes32, d: Bytes32)
    requires HashPairPreimage(a, b) == HashPairPreimage(c, d)
    ensures a == c && b == d
  {
    var p := HashPairPreimage(a, b);
    assert a == p[1..33] == c;
    assert b == p[33..65] == d;
  }

  /** Swapping two distinct children changes the bytes that are hashed, so the
      verifier's left/right choice is significant. */
  lemma SwappedPairDiffers(a: Bytes32, b: Bytes32)
    requires a != b
    ensures HashPairPreimage(a, b) != HashPairPreimage(b, a)
  {
    if HashPairPreimage(a, b) == HashPairPreimage(b, a) {
      HashPairPreimageInjective(a, b, b, a);
    }
  }

  /** One level of the fold: an odd index means the current node is a right
      child, so the sibling goes on the left. */
  function NextNode(H: Hasher, node: Bytes32, sibling: Bytes32, index: nat): Bytes32 {
    if index % 2 == 1 then HashPair(H, sibling, node) else HashPair(H, node, sibling)
  }

  /** The root recomputed from `node` by folding `proof` left to right, halving
      the index after every level (`index & 1` and `index >>= 1` on a `u64`
      are `% 2` and `/ 2` on its non-negative value). */
  function ComputeRoot(H: Hasher, node: Bytes32, proof: seq<Bytes32>, index: nat): (r: Bytes32)
    ensures |proof| == 0 ==> r == node
    ensures |proof| == 1 && index % 2 == 0 ==> r == HashPair(H, node, proof[0])
    ensures |proof| == 1 && index % 2 == 1 ==> r == HashPair(H, proof[0], node)
    decreases |proof|
  {
    if |proof| == 0 then node
    else ComputeRoot(H, NextNode(H, node, proof[0], index), proof[1..], index / 2)
  }

  /** `verify_merkle_proof`, written as the source's loop. */
  method VerifyMerkleProof(H: Hasher, leaf: Bytes32, proof: seq<Bytes32>, leafIndex: u64, root: Bytes32)
    returns (valid: bool)
    ensures valid <==> ComputeRoot(H, leaf, proof, leafIndex) == root
    ensures |proof| == 0 ==> (valid <==> leaf == root)
  {
    var computed := leaf;
    var index: nat := leafIndex;
    var k := 0;
    while k < |proof|
      invariant 0 <= k <= |proof|
      invariant ComputeRoot(H, computed, proof[k..], index) == ComputeRoot(H, leaf, proof, leafIndex)
    {
      var sibling := proof[k];
      assert proof[k..][1..] == proof[k + 1..];
      if index % 2 == 1 {
        computed := HashPair(H, sibling, computed);
      } else {
        computed := HashPair(H, computed, sibling);
      }
      index := index / 2;
      k := k + 1;
    }
    assert proof[k..] == [];
    valid := computed == root;
  }

  function Pow2(n: nat): (r: nat)
    ensures r > 0
  {
    if n == 0 then 1 else 2 * Pow2(n - 1)
  }

  lemma MulAtLeast(m: int, d: int)
    requires m > 0 && d >= 1
    ensures m * d >= m
  {
    if d > 1 {
      MulAtLeast(m, d - 1);
      assert m * d == m * (d - 1) + m;
    }
  }

  /** Quotient and remainder are the unique pair with `i == m * q + r`, `0 <= r < m`. */
  lemma DivModUnique(i: int, m: int, q: int, r: int)
    requires m > 0 && 0 <= r < m && i == m * q + r
    ensures i / m == q && i % m == r
  {
    var d := q - i / m;
    assert m * d == i % m - r by {
      assert i == m * (i / m) + i % m;
      assert m * q - m * (i / m) == m * d;
    }
    if d >= 1 {
      MulAtLeast(m, d);
    } else if d <= -1 {
      MulAtLeast(m, -d);
    }
  }

  /** Reducing an index modulo 2^(n+1) keeps its parity and reduces its half
      modulo 2^n; halving then dividing by m is dividing by 2m. */
  lemma ModDoubleHalves(i: nat, m: nat)
    requires m > 0
    ensures (i % (2 * m)) % 2 == i % 2
    ensures (i % (2 * m)) / 2 == (i / 2) % m
    ensures (i / 2) / m == i / (2 * m)
  {
    var q := i / (2 * m);
    var r := i % (2 * m);
    assert i == (2 * m) * q + r;
    var h := r / 2;
    var b := r % 2;
    assert r == 2 * h + b;
    assert i == 2 * (m * q + h) + b by {
      assert (2 * m) * q == 2 * (m * q);
    }
    DivModUnique(i, 2, m * q + h, b);
    assert h < m;
    DivModUnique(i / 2, m, q, h);
  }

  /** Only the low `|proof|` bits of the leaf index affect the recomputed root. */
  lemma {:induction false} OnlyLowIndexBitsMatter(H: Hasher, node: Bytes32, proof: seq<Bytes32>, index: nat)
    ensures ComputeRoot(H, node, proof, index) == ComputeRoot(H, node, proof, index % Pow2(|proof|))
    decreases |proof|
  {
    if |proof| > 0 {
      var m := Pow2(|proof| - 1);
      assert Pow2(|proof|) == 2 * m;
      var j := index % (2 * m);
      ModDoubleHalves(index, m);
      var next := NextNode(H, node, proof[0], index);
      assert NextNode(H, node, proof[0], j) == next;
      calc {
        ComputeRoot(H, node, proof, index);
        ComputeRoot(H, next, proof[1..], index / 2);
        { OnlyLowIndexBitsMatter(H, next, proof[1..], index / 2); }
        ComputeRoot(H, next, proof[1..], (index / 2) % m);
        ComputeRoot(H, next, proof[1..], j / 2);
        ComputeRoot(H, node, proof, j);
      }
    }
  }

  /** Folding a concatenated path is folding the first part, then the second
      part from the index shifted right by the first part's length. */
  lemma {:induction false} ComputeRootAppend(H: Hasher, node: Bytes32, p: seq<Bytes32>, q: seq<Bytes32>, index: nat)
    ensures ComputeRoot(H, node, p + q, index)
         == ComputeRoot(H, ComputeRoot(H, node, p, index), q, index / Pow2(|p|))
    decreases |p|
  {
    if |p| == 0 {
      assert p + q == q;
    } else {
      assert (p + q)[0] == p[0];
      assert (p + q)[1..] == p[1..] + q;
      var next := NextNode(H, node, p[0], index);
      ComputeRootAppend(H, next, p[1..], q, index / 2);
      ModDoubleHalves(index, Pow2(|p| - 1));
    }
  }

  /** The last sibling of a path is hashed last: the root is the pair of the
      node reached one level below it and that sibling, ordered by bit `|p|`
      of the index. */
  lemma LastSiblingHashedLast(H: Hasher, node: Bytes32, p: seq<Bytes32>, last: Bytes32, index: nat)
    ensures ComputeRoot(H, node, p + [last], index)
         == NextNode(H, ComputeRoot(H, node, p, index), last, IndexAbove(index, |p|))
  {
    var below := ComputeRoot(H, node, p, index);
    ComputeRootAppend(H, node, p, [last], index);
    OneSibling(H, below, last, IndexAbove(index, |p|));
  }

  /** The index of a node's ancestor `n` levels up. */
  function IndexAbove(index: nat, n: nat): nat {
    DivNonNegative(index, Pow2(n));
    index / Pow2(n)
  }

  /** Euclidean division of a natural number by a positive one is natural. */
  lemma DivNonNegative(a: nat, d: int)
    requires d > 0
    ensures a / d >= 0
  {
    assert a == d * (a / d) + a % d;
  }

  /** A path of one sibling is one level of the fold. */
  lemma OneSibling(H: Hasher, node: Bytes32, sibling: Bytes32, index: nat)
    ensures ComputeRoot(H, node, [sibling], index) == NextNode(H, node, sibling, index)
  {
    assert [sibling][1..] == [];
  }

  /** Leaves carry no tag of their own, so the interior node over `a` and `b`
      at position `index` of the level above the leaves folds to the same
      root as the leaf `a` at position `2 * index` with `b` prepended to the
      path. A verifier that is handed an interior node as a leaf accepts it. */
  lemma {:induction false} InteriorNodeFoldsAsLeaf(H: Hasher, a: Bytes32, b: Bytes32, proof: seq<Bytes32>, index: nat)
    ensures ComputeRoot(H, HashPair(H, a, b), proof, index) == ComputeRoot(H, a, [b] + proof, 2 * index)
  {
    assert ([b] + proof)[1..] == proof;
    assert NextNode(H, a, b, 2 * index) == HashPair(H, a, b);
  }

  /** Soundness relative to the hash: if two different leaves fold to the same
      root along the same path, the fold exhibits two different inputs on which
      the hash collides. So a proof that verifies for a forged leaf yields a
      Keccak-256 collision. */
  lemma {:induction false} ForgedLeafYieldsCollision(H: Hasher, a: Bytes32, b: Bytes32, proof: seq<Bytes32>, index: nat)
    returns (x: seq<byte>, y: seq<byte>)
    requires a != b
    requires ComputeRoot(H, a, proof, index) == ComputeRoot(H, b, proof, index)
    ensures x != y && H(x) == H(y)
    decreases |proof|
  {
    if |proof| == 0 {
      assert false;
    } else {
      var s := proof[0];
      var na := NextNode(H, a, s, index);
      var nb := NextNode(H, b, s, index);
      if na == nb {
        if index % 2 == 1 {
          x, y := HashPairPreimage(s, a), HashPairPreimage(s, b);
          if x == y {
            HashPairPreimageInjective(s, a, s, b);
          }
        } else {
          x, y := HashPairPreimage(a, s), HashPairPreimage(b, s);
          if x == y {
            HashPairPreimageInjective(a, s, b, s);
          }
        }
      } else {
        x, y := ForgedLeafYieldsCollision(H, na, nb, proof[1..], index / 2);
      }
    }
  }
}

=== FILE: obscura_vault.dfy ===
/** The claim vault: depositors send SOL to a vault address and claims pay
    it out, guarded by a pause flag, a non-zero amount and, on the two
    nullifier paths, a comparison against the single most recent nullifier.

    The state keeps counts of operations, not balances; the lamports live in
    a separate address that this model does not track. Each transfer takes
    `transferOk`, whether the system-program transfer succeeded. */
module ObscuraVault {
  import opened Bytes

  datatype ObscuraState = ObscuraState(
    authority: Bytes32,
    relayer: Bytes32,
    totalDeposits: u64,
    totalClaims: u64,
    lastCommitment: Bytes32,
    lastNullifier: Bytes32,
    bump: u8,
    paused: bool)

  datatype ObscuraError =
    // the program's own errors, in declaration order
    | NullifierAlreadyUsed
    | Unauthorized
    | UnauthorizedRelayer
    | VaultPaused
    | ZeroAmount
    // raised by the system program when the transfer fails
    | TransferFailed

  /** The account size reserved at creation: the discriminator and the
      fields in declaration order. */
  const VAULT_STATE_SPACE: nat := 8 + 32 + 32 + 8 + 8 + 32 + 32 + 1 + 1

  function EncodeObscuraState(disc: seq<byte>, s: ObscuraState): (r: seq<byte>)
    requires |disc| == DISCRIMINATOR_LEN
    ensures |r| == VAULT_STATE_SPACE == 154
    ensures r[..8] == disc && r[152] == s.bump
    ensures r[8..40] == s.authority && r[40..72] == s.relayer
    ensures DecodeLE(r[72..80]) == s.totalDeposits && DecodeLE(r[80..88]) == s.totalClaims
    ensures r[88..120] == s.lastCommitment && r[120..152] == s.lastNullifier
    ensures r[153] == 1 <==> s.paused
    ensures r[153] in {0, 1}
  {
    var r := disc + s.authority + s.relayer + U64Bytes(s.totalDeposits) + U64Bytes(s.totalClaims)
      + s.lastCommitment + s.lastNullifier + [s.bump] + [if s.paused then 1 else 0];
    assert r[8..40] == s.authority;
    assert r[40..72] == s.relayer;
    assert r[72..80] == U64Bytes(s.totalDeposits);
    assert r[80..88] == U64Bytes(s.totalClaims);
    assert r[88..120] == s.lastCommitment;
    assert r[120..152] == s.lastNullifier;
    r
  }

  /** `initialize`: the signer becomes authority and relayer. The two
      32-byte fields are never written, so they keep the zeroes of the
      freshly created account. */
  function Initialize(authority: Bytes32, bump: u8): (s: ObscuraState)
    ensures s.authority == authority && s.relayer == authority
    ensures s.totalDeposits == 0 && s.totalClaims == 0 && !s.paused
    ensures s.lastNullifier == ZERO32 && s.lastCommitment == ZERO32 && s.bump == bump
  {
    ObscuraState(authority, authority, 0, 0, ZERO32, ZERO32, bump, false)
  }

  /** `set_relayer`: the signer constraint demands the authority. */
  function SetRelayer(s: ObscuraState, signer: Bytes32, newRelayer: Bytes32): (r: Result<ObscuraState, ObscuraError>)
    ensures r.Ok? <==> signer == s.authority
    ensures r.Err? ==> r.error == Unauthorized
    ensures r.Ok? ==> r.value == s.(relayer := newRelayer)
  {
    if signer != s.authority then Err(Unauthorized) else Ok(s.(relayer := newRelayer))
  }

  /** `pause` and `unpause`: authority only; set the flag. */
  function SetPaused(s: ObscuraState, signer: Bytes32, paused: bool): (r: Result<ObscuraState, ObscuraError>)
    ensures r.Ok? <==> signer == s.authority
    ensures r.Err? ==> r.error == Unauthorized
    ensures r.Ok? ==> r.value == s.(paused := paused)
  {
    if signer != s.authority then Err(Unauthorized) else Ok(s.(paused := paused))
  }

  /** `pause`: the authority, and only the authority, stops deposits and
      claims; nothing but the flag changes. */
  function Pause(s: ObscuraState, signer: Bytes32): (r: Result<ObscuraState, ObscuraError>)
    ensures r.Ok? <==> signer == s.authority
    ensures r.Err? ==> r.error == Unauthorized
    ensures r.Ok? ==> r.value.paused && r.value.(paused := s.paused) == s
  {
    SetPaused(s, signer, true)
  }

  /** `unpause`: the authority, and only the authority, lifts the pause;
      nothing but the flag changes. */
  function Unpause(s: ObscuraState, signer: Bytes32): (r: Result<ObscuraState, ObscuraError>)
    ensures r.Ok? <==> signer == s.authority
    ensures r.Err? ==> r.error == Unauthorized
    ensures r.Ok? ==> !r.value.paused && r.value.(paused := s.paused) == s
  {
    SetPaused(s, signer, false)
  }

  /** `deposit`: any signer; the commitment is announced but not stored, so
      the state forgets it entirely. */
  function Deposit(s: ObscuraState, depositor: Bytes32, amount: u64, commitment: Bytes32, transferOk: bool)
    : (r: Result<ObscuraState, ObscuraError>)
    requires s.totalDeposits < U64_MAX
    ensures s.paused ==> r == Err(VaultPaused)
    ensures !s.paused && amount == 0 ==> r == Err(ZeroAmount)
    ensures !s.paused && amount > 0 && !transferOk ==> r == Err(TransferFailed)
    ensures r.Ok? <==> !s.paused && amount > 0 && transferOk
    ensures r.Ok? ==> r.value == s.(totalDeposits := s.totalDeposits + 1)
  {
    if s.paused then Err(VaultPaused)
    else if amount == 0 then Err(ZeroAmount)
    else if !transferOk then Err(TransferFailed)
    else Ok(s.(totalDeposits := s.totalDeposits + 1))
  }

  /** `claim`: no role check at all; the claimer's key plays no part. The
      only replay guard is inequality with the most recent nullifier. */
  function Claim(s: ObscuraState, claimer: Bytes32, amount: u64, commitment: Bytes32, nullifier: Bytes32,
                 transferOk: bool): (r: Result<ObscuraState, ObscuraError>)
    requires s.totalClaims < U64_MAX
    ensures s.paused ==> r == Err(VaultPaused)
    ensures !s.paused && amount == 0 ==> r == Err(ZeroAmount)
    ensures !s.paused && amount > 0 && nullifier == s.lastNullifier ==> r == Err(NullifierAlreadyUsed)
    ensures !s.paused && amount > 0 && nullifier != s.lastNullifier && !transferOk ==> r == Err(TransferFailed)
    ensures r.Ok? <==> !s.paused && amount > 0 && nullifier != s.lastNullifier && transferOk
    ensures r.Ok? ==> r.value == s.(totalClaims := s.totalClaims + 1, lastNullifier := nullifier,
                                    lastCommitment := commitment)
  {
    if s.paused then Err(VaultPaused)
    else if amount == 0 then Err(ZeroAmount)
    else if nullifier == s.lastNullifier then Err(NullifierAlreadyUsed)
    else if !transferOk then Err(TransferFailed)
    else Ok(s.(totalClaims := s.totalClaims + 1, lastNullifier := nullifier, lastCommitment := commitment))
  }

  /** `relayer_claim`: the signer constraint demands the stored relayer;
      after it, the same guards and updates as `claim`. */
  function RelayerClaim(s: ObscuraState, signer: Bytes32, amount: u64, commitment: Bytes32, nullifier: Bytes32,
                        transferOk: bool): (r: Result<ObscuraState, ObscuraError>)
    requires s.totalClaims < U64_MAX
    ensures signer != s.relayer ==> r == Err(UnauthorizedRelayer)
    ensures signer == s.relayer ==> r == Claim(s, signer, amount, commitment, nullifier, transferOk)
  {
    if signer != s.relayer then Err(UnauthorizedRelayer)
    else if s.paused then Err(VaultPaused)
    else if amount == 0 then Err(ZeroAmount)
    else if nullifier == s.lastNullifier then Err(NullifierAlreadyUsed)
    else if !transferOk then Err(TransferFailed)
    else Ok(s.(totalClaims := s.totalClaims + 1, lastNullifier := nullifier, lastCommitment := commitment))
  }

  /** `authority_claim`: authority only, and no nullifier at all; the last
      nullifier is left as it was. */
  function AuthorityClaim(s: ObscuraState, signer: Bytes32, amount: u64, commitment: Bytes32, transferOk: bool)
    : (r: Result<ObscuraState, ObscuraError>)
    requires s.totalClaims < U64_MAX
    ensures signer != s.authority ==> r == Err(Unauthorized)
    ensures signer == s.authority && s.paused ==> r == Err(VaultPaused)
    ensures signer == s.authority && !s.paused && amount == 0 ==> r == Err(ZeroAmount)
    ensures signer == s.authority && !s.paused && amount > 0 && !transferOk ==> r == Err(TransferFailed)
    ensures r.Ok? <==> signer == s.authority && !s.paused && amount > 0 && transferOk
    ensures r.Ok? ==> r.value == s.(totalClaims := s.totalClaims + 1, lastCommitment := commitment)
  {
    if signer != s.authority then Err(Unauthorized)
    else if s.paused then Err(VaultPaused)
    else if amount == 0 then Err(ZeroAmount)
    else if !transferOk then Err(TransferFailed)
    else Ok(s.(totalClaims := s.totalClaims + 1, lastCommitment := commitment))
  }

  /** Which signer calls `claim` makes no difference to its outcome. */
  lemma ClaimIgnoresSigner(s: ObscuraState, a: Bytes32, b: Bytes32, amount: u64, commitment: Bytes32,
                           nullifier: Bytes32, ok: bool)
    requires s.totalClaims < U64_MAX
    ensures Claim(s, a, amount, commitment, nullifier, ok) == Claim(s, b, amount, commitment, nullifier, ok)
  {
  }

  /** The zero nullifier can never be claimed first on a fresh vault: the
      never-written field already holds it. */
  lemma ZeroNullifierRefusedAfterInitialize(authority: Bytes32, bump: u8, claimer: Bytes32, amount: u64,
                                            commitment: Bytes32, ok: bool)
    ensures Claim(Initialize(authority, bump), claimer, amount, commitment, ZERO32, ok).Err?
  {
  }

  /** After `set_relayer`, exactly the new relayer can use the relayer path,
      and it gets the open claim's outcome. */
  lemma SetRelayerGovernsRelayerClaim(s: ObscuraState, newRelayer: Bytes32, signer: Bytes32, amount: u64,
                                      commitment: Bytes32, nullifier: Bytes32, ok: bool)
    requires s.totalClaims < U64_MAX
    ensures var t := SetRelayer(s, s.authority, newRelayer).value;
      && (signer != newRelayer ==> RelayerClaim(t, signer, amount, commitment, nullifier, ok) == Err(UnauthorizedRelayer))
      && RelayerClaim(t, newRelayer, amount, commitment, nullifier, ok)
         == Claim(t, newRelayer, amount, commitment, nullifier, ok)
  {
  }

  /** Pausing and then unpausing an unpaused vault gives back the same state;
      in between every deposit and claim is refused. */
  lemma PauseUnpauseRestores(s: ObscuraState, k: Bytes32, amount: u64, c: Bytes32, n: Bytes32, ok: bool)
    requires !s.paused && s.totalDeposits < U64_MAX && s.totalClaims < U64_MAX
    ensures var p := Pause(s, s.authority).value;
      && Deposit(p, k, amount, c, ok) == Err(VaultPaused)
      && Claim(p, k, amount, c, n, ok) == Err(VaultPaused)
      && Unpause(p, s.authority) == Ok(s)
  {
  }

  // ---- Runs of instructions ----

  datatype Instruction =
    | SetRelayerIx(signer: Bytes32, newRelayer: Bytes32)
    | DepositIx(depositor: Bytes32, amount: u64, commitment: Bytes32, transferOk: bool)
    | ClaimIx(claimer: Bytes32, amount: u64, commitment: Bytes32, nullifier: Bytes32, transferOk: bool)
    | AuthorityClaimIx(signer: Bytes32, amount: u64, commitment: Bytes32, transferOk: bool)
    | RelayerClaimIx(signer: Bytes32, amount: u64, commitment: Bytes32, nullifier: Bytes32, transferOk: bool)
    | PauseIx(signer: Bytes32)
    | UnpauseIx(signer: Bytes32)

  /** The claims that present a nullifier. */
  predicate IsNullifierClaim(ix: Instruction) {
    ix.ClaimIx? || ix.RelayerClaimIx?
  }

  predicate IsAnyClaim(ix: Instruction) {
    IsNullifierClaim(ix) || ix.AuthorityClaimIx?
  }

  /** Room left in both counters for `k` more instructions. */
  predicate CounterRoom(s: ObscuraState, k: nat) {
    s.totalDeposits + k <= U64_MAX && s.totalClaims + k <= U64_MAX
  }

  /** One instruction. A success moves each counter by one exactly when it is
      a deposit or a claim, keeps the authority, and changes the last
      nullifier exactly on a nullifier claim, to a value other than the one
      it held. */
  function Step(s: ObscuraState, ix: Instruction): (r: Result<ObscuraState, ObscuraError>)
    requires CounterRoom(s, 1)
    ensures r.Ok? ==> r.value.totalDeposits == s.totalDeposits + (if ix.DepositIx? then 1 else 0)
    ensures r.Ok? ==> r.value.totalClaims == s.totalClaims + (if IsAnyClaim(ix) then 1 else 0)
    ensures r.Ok? ==> r.value.authority == s.authority
    ensures r.Ok? && IsNullifierClaim(ix) ==> ix.nullifier != s.lastNullifier && r.value.lastNullifier == ix.nullifier
    ensures r.Ok? && !IsNullifierClaim(ix) ==> r.value.lastNullifier == s.lastNullifier
  {
    match ix
    case SetRelayerIx(signer, relayer) => SetRelayer(s, signer, relayer)
    case DepositIx(depositor, amount, c, ok) => Deposit(s, depositor, amount, c, ok)
    case ClaimIx(claimer, amount, c, n, ok) => Claim(s, claimer, amount, c, n, ok)
    case AuthorityClaimIx(signer, amount, c, ok) => AuthorityClaim(s, signer, amount, c, ok)
    case RelayerClaimIx(signer, amount, c, n, ok) => RelayerClaim(s, signer, amount, c, n, ok)
    case PauseIx(signer) => Pause(s, signer)
    case UnpauseIx(signer) => Unpause(s, signer)
  }

  /** The state after running `ops` in order; a failure changes nothing. */
  function Run(s: ObscuraState, ops: seq<Instruction>): (r: ObscuraState)
    requires CounterRoom(s, |ops|)
    ensures r.authority == s.authority
    decreases |ops|
  {
    if |ops| == 0 then s
    else
      var next := match Step(s, ops[0]) case Ok(n) => n case Err(_) => s;
      Run(next, ops[1..])
  }

  /** The instructions of `ops` that succeed when run from `s`, in order. */
  function Succeeded(s: ObscuraState, ops: seq<Instruction>): seq<Instruction>
    requires CounterRoom(s, |ops|)
    decreases |ops|
  {
    if |ops| == 0 then []
    else match Step(s, ops[0])
      case Ok(n) => [ops[0]] + Succeeded(n, ops[1..])
      case Err(_) => Succeeded(s, ops[1..])
  }

  function CountDeposits(ixs: seq<Instruction>): nat {
    if |ixs| == 0 then 0 else (if ixs[0].DepositIx? then 1 else 0) + CountDeposits(ixs[1..])
  }

  function CountClaims(ixs: seq<Instruction>): nat {
    if |ixs| == 0 then 0 else (if IsAnyClaim(ixs[0]) then 1 else 0) + CountClaims(ixs[1..])
  }

  /** How many of `ixs` are claims presenting nullifier `n`. */
  function ClaimsOf(ixs: seq<Instruction>, n: Bytes32): nat {
    if |ixs| == 0 then 0
    else (if IsNullifierClaim(ixs[0]) && ixs[0].nullifier == n then 1 else 0) + ClaimsOf(ixs[1..], n)
  }

  /** The counters count successful operations: deposits, and claims on all
      three paths. */
  lemma {:induction false} RunCounters(s: ObscuraState, ops: seq<Instruction>)
    requires CounterRoom(s, |ops|)
    ensures Run(s, ops).totalDeposits == s.totalDeposits + CountDeposits(Succeeded(s, ops))
    ensures Run(s, ops).totalClaims == s.totalClaims + CountClaims(Succeeded(s, ops))
    decreases |ops|
  {
    if |ops| > 0 {
      match Step(s, ops[0])
      case Ok(n) =>
        RunCounters(n, ops[1..]);
        assert ([ops[0]] + Succeeded(n, ops[1..]))[1..] == Succeeded(n, ops[1..]);
      case Err(_) =>
        RunCounters(s, ops[1..]);
    }
  }

  /** Two claims in a row with the same nullifier never both succeed. */
  lemma ImmediateReplayRefused(s: ObscuraState, c1: Bytes32, c2: Bytes32, a1: u64, a2: u64, n: Bytes32,
                               k1: Bytes32, k2: Bytes32, ok: bool)
    requires CounterRoom(s, 2)
    requires Claim(s, k1, a1, c1, n, ok).Ok? && a2 > 0
    ensures Claim(Claim(s, k1, a1, c1, n, ok).value, k2, a2, c2, n, ok) == Err(NullifierAlreadyUsed)
  {
  }

  /** The replay of an older nullifier, as the program is written: from a
      fresh vault, claims with `n1`, then `n2`, then `n1` again all succeed,
      so nullifier `n1` is paid out twice. */
  lemma OlderNullifierReplays(authority: Bytes32, bump: u8, claimer: Bytes32, c: Bytes32, n1: Bytes32, n2: Bytes32)
    requires n1 != n2 && n1 != ZERO32 && n2 != ZERO32
    ensures var ops := [ClaimIx(claimer, 1, c, n1, true), ClaimIx(claimer, 1, c, n2, true),
                        ClaimIx(claimer, 1, c, n1, true)];
            Succeeded(Initialize(authority, bump), ops) == ops
            && ClaimsOf(Succeeded(Initialize(authority, bump), ops), n1) == 2
  {
    var s0 := Initialize(authority, bump);
    var ops := [ClaimIx(claimer, 1, c, n1, true), ClaimIx(claimer, 1, c, n2, true), ClaimIx(claimer, 1, c, n1, true)];
    var s1 := Claim(s0, claimer, 1, c, n1, true).value;
    var s2 := Claim(s1, claimer, 1, c, n2, true).value;
    var s3 := Claim(s2, claimer, 1, c, n1, true).value;
    assert ops[1..][1..] == [ops[2]];
    assert Succeeded(s3, ops[1..][1..][1..]) == [];
    assert Succeeded(s2, ops[1..][1..]) == [ops[2]];
    assert Succeeded(s1, ops[1..]) == [ops[1], ops[2]];
    assert Succeeded(s0, ops) == ops;
    assert ops[1..] == [ops[1], ops[2]] && ops[1..][1..] == [ops[2]];
    assert ClaimsOf([ops[2]], n1) == 1;
    assert ClaimsOf(ops[1..], n1) == 1;
  }

  // ---- Nullifier guard with a spent set ----

  /** The vault with the guard evidently intended: every nullifier ever
      claimed is remembered, as the other two programs remember every
      commitment in an account of its own. */
  datatype GuardedVault = GuardedVault(state: ObscuraState, spent: set<Bytes32>)

  function GuardedInitialize(authority: Bytes32, bump: u8): (g: GuardedVault)
    ensures g.state == Initialize(authority, bump) && g.spent == {}
  {
    GuardedVault(Initialize(authority, bump), {})
  }

  /** What the two nullifier paths share once the signer check has passed:
      the pause and amount guards, then the spent-set check. */
  function GuardedNullifierClaim(g: GuardedVault, amount: u64, commitment: Bytes32, nullifier: Bytes32,
                                 transferOk: bool): (r: Result<GuardedVault, ObscuraError>)
    requires g.state.totalClaims < U64_MAX
    ensures g.state.paused ==> r == Err(VaultPaused)
    ensures !g.state.paused && amount == 0 ==> r == Err(ZeroAmount)
    ensures !g.state.paused && amount > 0 && nullifier in g.spent ==> r == Err(NullifierAlreadyUsed)
    ensures !g.state.paused && amount > 0 && nullifier !in g.spent && !transferOk ==> r == Err(TransferFailed)
    ensures r.Ok? <==> !g.state.paused && amount > 0 && nullifier !in g.spent && transferOk
    ensures r.Ok? ==> r.value.spent == g.spent + {nullifier}
    ensures r.Ok? ==> r.value.state == g.state.(totalClaims := g.state.totalClaims + 1, lastNullifier := nullifier,
                                                lastCommitment := commitment)
  {
    if g.state.paused then Err(VaultPaused)
    else if amount == 0 then Err(ZeroAmount)
    else if nullifier in g.spent then Err(NullifierAlreadyUsed)
    else if !transferOk then Err(TransferFailed)
    else
      Ok(GuardedVault(
        g.state.(totalClaims := g.state.totalClaims + 1, lastNullifier := nullifier, lastCommitment := commitment),
        g.spent + {nullifier}))
  }

  /** One instruction against the guarded vault: the nullifier claims use
      the spent set, everything else is the program's own instruction. */
  function GuardedStep(g: GuardedVault, ix: Instruction): (r: Result<GuardedVault, ObscuraError>)
    requires CounterRoom(g.state, 1)
    ensures r.Ok? ==> g.spent <= r.value.spent
    ensures r.Ok? && IsNullifierClaim(ix) ==> ix.nullifier !in g.spent && ix.nullifier in r.value.spent
  {
    match ix
    case ClaimIx(_, amount, c, n, ok) => GuardedNullifierClaim(g, amount, c, n, ok)
    case RelayerClaimIx(signer, amount, c, n, ok) =>
      if signer != g.state.relayer then Err(UnauthorizedRelayer) else GuardedNullifierClaim(g, amount, c, n, ok)
    case _ => Step(g.state, ix).Map((s: ObscuraState) => g.(state := s))
  }

  /** The guarded instructions that succeed when `ops` run from `g`. */
  function GuardedSucceeded(g: GuardedVault, ops: seq<Instruction>): seq<Instruction>
    requires CounterRoom(g.state, |ops|)
    decreases |ops|
  {
    if |ops| == 0 then []
    else match GuardedStep(g, ops[0])
      case Ok(n) =>
        assert n.state.totalDeposits <= g.state.totalDeposits + 1 && n.state.totalClaims <= g.state.totalClaims + 1
          by { GuardedStepCounters(g, ops[0]); }
        [ops[0]] + GuardedSucceeded(n, ops[1..])
      case Err(_) => GuardedSucceeded(g, ops[1..])
  }

  lemma GuardedStepCounters(g: GuardedVault, ix: Instruction)
    requires CounterRoom(g.state, 1)
    ensures GuardedStep(g, ix).Ok? ==>
      && GuardedStep(g, ix).value.state.totalDeposits <= g.state.totalDeposits + 1
      && GuardedStep(g, ix).value.state.totalClaims <= g.state.totalClaims + 1
  {
  }

  /** With the spent set, each nullifier is claimed at most once along any
      run, and never if it was spent before the run. */
  lemma {:induction false} GuardedClaimAtMostOnce(g: GuardedVault, ops: seq<Instruction>, n: Bytes32)
    requires CounterRoom(g.state, |ops|)
    ensures ClaimsOf(GuardedSucceeded(g, ops), n) <= 1
    ensures n in g.spent ==> ClaimsOf(GuardedSucceeded(g, ops), n) == 0
    decreases |ops|
  {
    if |ops| > 0 {
      match GuardedStep(g, ops[0])
      case Ok(next) =>
        GuardedStepCounters(g, ops[0]);
        GuardedClaimAtMostOnce(next, ops[1..], n);
        assert ([ops[0]] + GuardedSucceeded(next, ops[1..]))[1..] == GuardedSucceeded(next, ops[1..]);
      case Err(_) =>
        GuardedClaimAtMostOnce(g, ops[1..], n);
    }
  }

  /** The replay that the program lets through is refused by the guard. */
  lemma GuardedRefusesOlderNullifier(authority: Bytes32, bump: u8, claimer: Bytes32, c: Bytes32, n1: Bytes32,
                                     n2: Bytes32)
    requires n1 != n2
    ensures var ops := [ClaimIx(claimer, 1, c, n1, true), ClaimIx(claimer, 1, c, n2, true),
                        ClaimIx(claimer, 1, c, n1, true)];
            ClaimsOf(GuardedSucceeded(GuardedInitialize(authority, bump), ops), n1) == 1
  {
    var g0 := GuardedInitialize(authority, bump);
    var ops := [ClaimIx(claimer, 1, c, n1, true), ClaimIx(claimer, 1, c, n2, true), ClaimIx(claimer, 1, c, n1, true)];
    var g1 := GuardedStep(g0, ops[0]).value;
    var g2 := GuardedStep(g1, ops[1]).value;
    assert GuardedStep(g2, ops[2]) == Err(NullifierAlreadyUsed);
    assert ops[1..][1..] == [ops[2]];
    assert GuardedSucceeded(g2, ops[1..][1..][1..]) == [];
    assert GuardedSucceeded(g2, ops[1..][1..]) == [];
    assert GuardedSucceeded(g1, ops[1..]) == [ops[1]];
    var done := [ops[0], ops[1]];
    assert GuardedSucceeded(g0, ops) == done;
    assert done[1..] == [ops[1]] && done[1..][1..] == [];
    assert ClaimsOf([ops[1]], n1) == 0;
  }

  /** The stored last nullifier is either the never-written zero value or a
      nullifier the spent set already holds. */
  predicate LastNullifierSpent(g: GuardedVault) {
    g.state.lastNullifier == ZERO32 || g.state.lastNullifier in g.spent
  }

  /** A fresh guarded vault satisfies `LastNullifierSpent`. */
  lemma GuardedInitializeLastNullifierSpent(authority: Bytes32, bump: u8)
    ensures LastNullifierSpent(GuardedInitialize(authority, bump))
  {
  }

  /** Every successful guarded instruction keeps `LastNullifierSpent`, so it
      holds on every state a guarded run reaches. */
  lemma GuardedStepKeepsLastNullifierSpent(g: GuardedVault, ix: Instruction)
    requires CounterRoom(g.state, 1) && LastNullifierSpent(g)
    ensures GuardedStep(g, ix).Ok? ==> LastNullifierSpent(GuardedStep(g, ix).value)
  {
  }

  /** The guard is a strengthening, not a different program: while the
      last nullifier is either the initial zero or spent, a guarded claim
      with a non-zero nullifier that succeeds is one the program itself
      accepts, with the same resulting state. */
  lemma GuardedClaimRefines(g: GuardedVault, claimer: Bytes32, amount: u64, commitment: Bytes32, nullifier: Bytes32,
                            ok: bool)
    requires g.state.totalClaims < U64_MAX
    requires LastNullifierSpent(g)
    requires nullifier != ZERO32
    requires GuardedNullifierClaim(g, amount, commitment, nullifier, ok).Ok?
    ensures Claim(g.state, claimer, amount, commitment, nullifier, ok)
         == Ok(GuardedNullifierClaim(g, amount, commitment, nullifier, ok).value.state)
  {
  }
}

=== FILE: settlement.dfy ===
/** The settlement program's instructions, each an atomic step from a ledger
    (the settlement state plus the accounts the program has created) to a
    new ledger or an error.

    Anchor validates the accounts of an instruction before its handler runs:
    an `init` account at an address that already holds one fails with the
    host's "already in use" error, and `has_one = authority` fails with
    `ConstraintHasOne`. Both therefore come before every `require!` of the
    handler. */
module Settlement {
  import opened Bytes
  import opened Merkle
  import opened SettlementAccounts

  datatype SettlementError =
    // the program's own errors, in declaration order
    | Unauthorized
    | InvalidProof
    | CommitmentAlreadyUsed
    | InvalidRoot
    | MaxExecutorsReached
    | ExecutorNotFound
    | ExecutorAlreadyExists
    | ProofTooLong
    | EmptyProof
    | InvalidPendingAuthority
    | NoPendingTransfer
    // raised by the host before the handler runs
    | AccountAlreadyInUse
    | ConstraintHasOne

  /** The settlement state together with the `BatchRoot` accounts, keyed by
      the batch id in their address, and the `UsedCommitment` accounts, keyed
      by the commitment in their address. */
  datatype Ledger = Ledger(
    state: SettlementState,
    batches: map<u64, BatchRoot>,
    used: map<Bytes32, UsedCommitment>)

  const EMPTY_SLOTS: ExecutorSlots :=
    [ZERO32, ZERO32, ZERO32, ZERO32, ZERO32, ZERO32, ZERO32, ZERO32, ZERO32, ZERO32]

  /** What every reachable ledger satisfies: the executor invariant, one
      history record per batch id from 1 to `batchId` holding a non-zero root,
      the current root being the latest recorded one (zero before the first
      rotation), and each replay record stored under its own commitment. */
  ghost predicate LedgerValid(l: Ledger) {
    && ExecutorsValid(l.state)
    && (forall b :: b in l.batches <==> 1 <= b <= l.state.batchId)
    && (forall b :: b in l.batches ==> l.batches[b].batchId == b && l.batches[b].root != ZERO32)
    && (l.state.batchId == 0 ==> l.state.currentRoot == ZERO32)
    && (l.state.batchId > 0 ==> l.batches[l.state.batchId].root == l.state.currentRoot)
    && (forall c :: c in l.used ==> l.used[c].commitment == c && l.used[c].batchId <= l.state.batchId)
  }

  /** `initialize`: the signer becomes the authority; no executor, no pending
      transfer, a zero root and batch 0. */
  function Initialize(authority: Bytes32, bump: u8): (l: Ledger)
    ensures LedgerValid(l)
    ensures forall k :: IsExecutor(l.state, k) <==> k == authority
    ensures l.state.pendingAuthority == ZERO32 && l.state.batchId == 0
    ensures l.state.executorCount == 0 && l.state.executors == EMPTY_SLOTS && l.state.bump == bump
    ensures l.batches == map[] && l.used == map[]
  {
    Ledger(SettlementState(authority, ZERO32, ZERO32, 0, 0, EMPTY_SLOTS, bump), map[], map[])
  }

  /** `update_root`. The `BatchRoot` account for batch `batchId + 1` is created
      before the handler runs; the handler then checks the executor role and
      the non-zero root. */
  function UpdateRoot(l: Ledger, executor: Bytes32, newRoot: Bytes32, now: i64, bump: u8)
    : (r: Result<Ledger, SettlementError>)
    requires l.state.executorCount <= MAX_EXECUTORS
    requires l.state.batchId < U64_MAX
    ensures l.state.batchId + 1 in l.batches ==> r == Err(AccountAlreadyInUse)
    ensures l.state.batchId + 1 !in l.batches && !IsExecutor(l.state, executor) ==> r == Err(Unauthorized)
    ensures l.state.batchId + 1 !in l.batches && IsExecutor(l.state, executor) && newRoot == ZERO32
            ==> r == Err(InvalidRoot)
    ensures r.Ok? <==> l.state.batchId + 1 !in l.batches && IsExecutor(l.state, executor) && newRoot != ZERO32
    ensures r.Ok? ==>
      && r.value.state == l.state.(batchId := l.state.batchId + 1, currentRoot := newRoot)
      && r.value.batches.Keys == l.batches.Keys + {l.state.batchId + 1}
      && r.value.batches[l.state.batchId + 1] == BatchRoot(l.state.batchId + 1, newRoot, now, executor, bump)
      && (forall b :: b in l.batches ==> r.value.batches[b] == l.batches[b])
      && r.value.used == l.used
  {
    var next := l.state.batchId + 1;
    if next in l.batches then Err(AccountAlreadyInUse)
    else if !IsExecutor(l.state, executor) then Err(Unauthorized)
    else if newRoot == ZERO32 then Err(InvalidRoot)
    else
      Ok(Ledger(
        l.state.(batchId := next, currentRoot := newRoot),
        l.batches[next := BatchRoot(next, newRoot, now, executor, bump)],
        l.used))
  }

  /** `settle`. The `UsedCommitment` account at the address derived from the
      commitment is created before the handler runs, so a commitment that was
      settled before is refused first; then the proof length is checked, and
      only then is anything hashed. Any payer may call it. */
  function Settle(H: Hasher, l: Ledger, payer: Bytes32, commitment: Bytes32, proof: seq<Bytes32>,
                  leafIndex: u64, now: i64, bump: u8): (r: Result<Ledger, SettlementError>)
    ensures commitment in l.used ==> r == Err(AccountAlreadyInUse)
    ensures commitment !in l.used && |proof| == 0 ==> r == Err(EmptyProof)
    ensures commitment !in l.used && |proof| > MAX_PROOF_LENGTH ==> r == Err(ProofTooLong)
    ensures (commitment !in l.used && 0 < |proof| <= MAX_PROOF_LENGTH
             && ComputeRoot(H, commitment, proof, leafIndex) != l.state.currentRoot) ==> r == Err(InvalidProof)
    ensures r.Ok? <==>
      && commitment !in l.used
      && 0 < |proof| <= MAX_PROOF_LENGTH
      && ComputeRoot(H, commitment, proof, leafIndex) == l.state.currentRoot
    ensures r.Ok? ==>
      r.value == l.(used := l.used[commitment := UsedCommitment(commitment, l.state.batchId, now, payer, bump)])
  {
    if commitment in l.used then Err(AccountAlreadyInUse)
    else if |proof| == 0 then Err(EmptyProof)
    else if |proof| > MAX_PROOF_LENGTH then Err(ProofTooLong)
    else if ComputeRoot(H, commitment, proof, leafIndex) != l.state.currentRoot then Err(InvalidProof)
    else Ok(l.(used := l.used[commitment := UsedCommitment(commitment, l.state.batchId, now, payer, bump)]))
  }

  /** `add_executor`: authority only; a duplicate is refused before capacity
      is checked; the new key goes into slot `executorCount`. */
  function AddExecutor(s: SettlementState, signer: Bytes32, executor: Bytes32)
    : (r: Result<SettlementState, SettlementError>)
    requires s.executorCount <= MAX_EXECUTORS
    ensures signer != s.authority ==> r == Err(ConstraintHasOne)
    ensures signer == s.authority && executor in Live(s) ==> r == Err(ExecutorAlreadyExists)
    ensures signer == s.authority && executor !in Live(s) && s.executorCount == MAX_EXECUTORS
            ==> r == Err(MaxExecutorsReached)
    ensures r.Ok? <==> signer == s.authority && executor !in Live(s) && s.executorCount < MAX_EXECUTORS
    ensures r.Ok? ==>
      && r.value.executorCount == s.executorCount + 1
      && Live(r.value) == Live(s) + [executor]
      && r.value.(executorCount := s.executorCount, executors := s.executors) == s
    ensures r.Ok? && ExecutorsValid(s) ==> ExecutorsValid(r.value)
  {
    if signer != s.authority then Err(ConstraintHasOne)
    else if ScanSlots(s.executors, s.executorCount, executor, 0) then Err(ExecutorAlreadyExists)
    else if s.executorCount >= MAX_EXECUTORS then Err(MaxExecutorsReached)
    else
      var n := s.(executors := s.executors[s.executorCount := executor], executorCount := s.executorCount + 1);
      assert Live(n) == Live(s) + [executor];
      Ok(n)
  }

  /** The state after moving the last live slot into position `idx` and
      resetting the last live slot to the default key. */
  function SwapRemove(s: SettlementState, idx: nat): (r: SettlementState)
    requires idx < s.executorCount <= MAX_EXECUTORS
    ensures r.executorCount == s.executorCount - 1 && r.executors[r.executorCount] == ZERO32
    ensures idx < r.executorCount ==> r.executors[idx] == s.executors[r.executorCount]
    ensures forall j :: 0 <= j < |s.executors| && j != idx && j != r.executorCount ==> r.executors[j] == s.executors[j]
    ensures r.(executors := s.executors, executorCount := s.executorCount) == s
  {
    var last := s.executorCount - 1;
    var moved := if idx != last then s.executors[idx := s.executors[last]] else s.executors;
    s.(executors := moved[last := ZERO32], executorCount := last)
  }

  /** Swap-removal takes exactly the key at `idx` out of the live prefix. */
  lemma SwapRemoveLive(s: SettlementState, idx: nat)
    requires idx < s.executorCount <= MAX_EXECUTORS
    ensures multiset(Live(SwapRemove(s, idx))) == multiset(Live(s)) - multiset{s.executors[idx]}
  {
    var last := s.executorCount - 1;
    var moved := if idx != last then s.executors[idx := s.executors[last]] else s.executors;
    assert Live(SwapRemove(s, idx)) == moved[..last];
    assert Live(s) == s.executors[..last] + [s.executors[last]];
    if idx != last {
      assert moved[..last] == s.executors[..last][idx := s.executors[last]];
    }
  }

  /** Swap-removal keeps the executor invariant, and on a duplicate-free
      prefix the removed key is gone. */
  lemma SwapRemoveValid(s: SettlementState, idx: nat)
    requires idx < s.executorCount <= MAX_EXECUTORS
    ensures ExecutorsValid(s) ==> ExecutorsValid(SwapRemove(s, idx))
    ensures ExecutorsValid(s) ==> s.executors[idx] !in Live(SwapRemove(s, idx))
  {
    if ExecutorsValid(s) {
      SwapRemoveValidCase(s, idx);
    }
  }

  lemma SwapRemoveValidCase(s: SettlementState, idx: nat)
    requires idx < s.executorCount && ExecutorsValid(s)
    ensures ExecutorsValid(SwapRemove(s, idx))
    ensures s.executors[idx] !in Live(SwapRemove(s, idx))
  {
    var n := SwapRemove(s, idx);
    var last := s.executorCount - 1;
    forall j | 0 <= j < last
      ensures n.executors[j] != s.executors[idx]
    {
      if j == idx {
        assert n.executors[j] == s.executors[last];
      } else {
        assert n.executors[j] == s.executors[j];
      }
    }
  }

  /** `remove_executor`: authority only; the first matching live slot is
      overwritten by the last live slot, the last live slot is reset to the
      default key and the count shrinks. The order of the remaining executors
      is not preserved. */
  function RemoveExecutor(s: SettlementState, signer: Bytes32, executor: Bytes32)
    : (r: Result<SettlementState, SettlementError>)
    requires s.executorCount <= MAX_EXECUTORS
    ensures signer != s.authority ==> r == Err(ConstraintHasOne)
    ensures signer == s.authority && executor !in Live(s) ==> r == Err(ExecutorNotFound)
    ensures r.Ok? <==> signer == s.authority && executor in Live(s)
    ensures r.Ok? ==>
      && r.value.executorCount == s.executorCount - 1
      && multiset(Live(r.value)) == multiset(Live(s)) - multiset{executor}
      && r.value.(executorCount := s.executorCount, executors := s.executors) == s
    ensures r.Ok? && ExecutorsValid(s) ==> ExecutorsValid(r.value) && executor !in Live(r.value)
    ensures r.Ok? ==> IndexOf(Live(s), executor).Some? && r.value == SwapRemove(s, IndexOf(Live(s), executor).value)
  {
    if signer != s.authority then Err(ConstraintHasOne)
    else match IndexOf(Live(s), executor)
      case None => Err(ExecutorNotFound)
      case Some(idx) =>
        SwapRemoveLive(s, idx);
        SwapRemoveValid(s, idx);
        Ok(SwapRemove(s, idx))
  }

  /** `transfer_authority`: authority only; refuses the default key and
      overwrites any pending transfer. */
  function TransferAuthority(s: SettlementState, signer: Bytes32, newAuthority: Bytes32)
    : (r: Result<SettlementState, SettlementError>)
    ensures signer != s.authority ==> r == Err(ConstraintHasOne)
    ensures signer == s.authority && newAuthority == ZERO32 ==> r == Err(InvalidPendingAuthority)
    ensures r.Ok? <==> signer == s.authority && newAuthority != ZERO32
    ensures r.Ok? ==> r.value == s.(pendingAuthority := newAuthority)
  {
    if signer != s.authority then Err(ConstraintHasOne)
    else if newAuthority == ZERO32 then Err(InvalidPendingAuthority)
    else Ok(s.(pendingAuthority := newAuthority))
  }

  /** `accept_authority`: needs a pending transfer, then the pending key as
      signer; the pending key becomes the authority and the slot is cleared. */
  function AcceptAuthority(s: SettlementState, signer: Bytes32): (r: Result<SettlementState, SettlementError>)
    ensures s.pendingAuthority == ZERO32 ==> r == Err(NoPendingTransfer)
    ensures s.pendingAuthority != ZERO32 && signer != s.pendingAuthority ==> r == Err(Unauthorized)
    ensures r.Ok? <==> s.pendingAuthority != ZERO32 && signer == s.pendingAuthority
    ensures r.Ok? ==> r.value == s.(authority := signer, pendingAuthority := ZERO32)
  {
    if s.pendingAuthority == ZERO32 then Err(NoPendingTransfer)
    else if signer != s.pendingAuthority then Err(Unauthorized)
    else Ok(s.(authority := s.pendingAuthority, pendingAuthority := ZERO32))
  }

  /** `cancel_authority_transfer`: authority only; clears the pending key
      whether or not one was set. */
  function CancelAuthorityTransfer(s: SettlementState, signer: Bytes32): (r: Result<SettlementState, SettlementError>)
    ensures r.Ok? <==> signer == s.authority
    ensures r.Err? ==> r.error == ConstraintHasOne
    ensures r.Ok? ==> r.value == s.(pendingAuthority := ZERO32)
  {
    if signer != s.authority then Err(ConstraintHasOne)
    else Ok(s.(pendingAuthority := ZERO32))
  }

  // ---- Properties of single instructions ----

  /** On a reachable ledger the history account for the next batch never
      exists yet, so a caller who is not an executor is refused with
      `Unauthorized` and a zero root is always refused. */
  lemma UpdateRootGating(l: Ledger, executor: Bytes32, newRoot: Bytes32, now: i64, bump: u8)
    requires LedgerValid(l) && l.state.batchId < U64_MAX
    ensures !IsExecutor(l.state, executor) ==> UpdateRoot(l, executor, newRoot, now, bump) == Err(Unauthorized)
    ensures IsExecutor(l.state, executor) && newRoot == ZERO32
            ==> UpdateRoot(l, executor, newRoot, now, bump) == Err(InvalidRoot)
    ensures UpdateRoot(l, executor, newRoot, now, bump).Ok? <==> IsExecutor(l.state, executor) && newRoot != ZERO32
  {
    assert l.state.batchId + 1 !in l.batches;
  }

  lemma UpdateRootKeepsValid(l: Ledger, executor: Bytes32, newRoot: Bytes32, now: i64, bump: u8)
    requires LedgerValid(l) && l.state.batchId < U64_MAX
    ensures var r := UpdateRoot(l, executor, newRoot, now, bump);
            r.Ok? ==> LedgerValid(r.value)
  {
  }

  /** A proof that is empty or longer than 32 entries is refused whatever the
      hash function, so it is refused before anything is hashed. */
  lemma ProofBoundsCheckedBeforeHashing(H1: Hasher, H2: Hasher, l: Ledger, payer: Bytes32, commitment: Bytes32,
                                        proof: seq<Bytes32>, leafIndex: u64, now: i64, bump: u8)
    requires commitment !in l.used
    requires |proof| == 0 || |proof| > MAX_PROOF_LENGTH
    ensures Settle(H1, l, payer, commitment, proof, leafIndex, now, bump)
         == Settle(H2, l, payer, commitment, proof, leafIndex, now, bump)
    ensures Settle(H1, l, payer, commitment, proof, leafIndex, now, bump).Err?
  {
  }

  /** `settle` needs no role: whether it succeeds does not depend on the payer. */
  lemma SettleNeedsNoRole(H: Hasher, l: Ledger, p1: Bytes32, p2: Bytes32, commitment: Bytes32,
                          proof: seq<Bytes32>, leafIndex: u64, now: i64, bump: u8)
    ensures Settle(H, l, p1, commitment, proof, leafIndex, now, bump).Ok?
        <==> Settle(H, l, p2, commitment, proof, leafIndex, now, bump).Ok?
  {
  }

  /** Adding an executor and removing it again restores the state exactly:
      the key lands in the last live slot, which removal resets to the
      default key. */
  lemma AddThenRemoveRestores(s: SettlementState, signer: Bytes32, executor: Bytes32)
    requires ExecutorsValid(s)
    requires AddExecutor(s, signer, executor).Ok?
    ensures RemoveExecutor(AddExecutor(s, signer, executor).value, signer, executor) == Ok(s)
  {
    var a := AddExecutor(s, signer, executor).value;
    var count := s.executorCount;
    assert Live(a) == Live(s) + [executor];
    assert executor !in Live(s);
    var idx := IndexOf(Live(a), executor);
    assert idx == Some(count as nat);
    assert a.executors[count := ZERO32] == s.executors;
  }

  /** The two-step handover: after the authority proposes `next`, only `next`
      can accept; accepting makes `next` the authority and clears the pending
      key; cancelling instead leaves nothing to accept. */
  lemma TwoStepHandover(s: SettlementState, next: Bytes32, other: Bytes32)
    requires next != ZERO32 && other != next
    ensures var p := TransferAuthority(s, s.authority, next);
      && p.Ok?
      && AcceptAuthority(p.value, other) == Err(Unauthorized)
      && AcceptAuthority(p.value, next) == Ok(s.(authority := next, pendingAuthority := ZERO32))
      && AcceptAuthority(CancelAuthorityTransfer(p.value, s.authority).value, next) == Err(NoPendingTransfer)
  {
  }

  // ---- Runs of instructions ----

  datatype Instruction =
    | UpdateRootIx(executor: Bytes32, newRoot: Bytes32, now: i64, bump: u8)
    | SettleIx(payer: Bytes32, commitment: Bytes32, proof: seq<Bytes32>, leafIndex: u64, now: i64, bump: u8)
    | AddExecutorIx(signer: Bytes32, executor: Bytes32)
    | RemoveExecutorIx(signer: Bytes32, executor: Bytes32)
    | TransferAuthorityIx(signer: Bytes32, newAuthority: Bytes32)
    | AcceptAuthorityIx(signer: Bytes32)
    | CancelAuthorityTransferIx(signer: Bytes32)

  /** One instruction against a reachable ledger. Every successful
      instruction keeps the ledger reachable, never forgets a replay record,
      raises the batch id by at most one and keeps a non-default authority. */
  function Step(H: Hasher, l: Ledger, ix: Instruction): (r: Result<Ledger, SettlementError>)
    requires LedgerValid(l) && l.state.batchId < U64_MAX
    ensures r.Ok? ==> LedgerValid(r.value)
    ensures r.Ok? ==> l.used.Keys <= r.value.used.Keys
    ensures r.Ok? ==> l.state.batchId <= r.value.state.batchId <= l.state.batchId + 1
    ensures r.Ok? && ix.SettleIx? ==> ix.commitment !in l.used && ix.commitment in r.value.used
    ensures r.Ok? && l.state.authority != ZERO32 ==> r.value.state.authority != ZERO32
  {
    var lift := (s: SettlementState) => l.(state := s);
    match ix
    case UpdateRootIx(executor, newRoot, now, bump) =>
      UpdateRootKeepsValid(l, executor, newRoot, now, bump);
      UpdateRoot(l, executor, newRoot, now, bump)
    case SettleIx(payer, commitment, proof, leafIndex, now, bump) =>
      Settle(H, l, payer, commitment, proof, leafIndex, now, bump)
    case AddExecutorIx(signer, executor) => AddExecutor(l.state, signer, executor).Map(lift)
    case RemoveExecutorIx(signer, executor) => RemoveExecutor(l.state, signer, executor).Map(lift)
    case TransferAuthorityIx(signer, newAuthority) => TransferAuthority(l.state, signer, newAuthority).Map(lift)
    case AcceptAuthorityIx(signer) => AcceptAuthority(l.state, signer).Map(lift)
    case CancelAuthorityTransferIx(signer) => CancelAuthorityTransfer(l.state, signer).Map(lift)
  }

  /** The ledger after running `ops` in order; a failed instruction leaves the
      ledger as it was. */
  function Run(H: Hasher, l: Ledger, ops: seq<Instruction>): (r: Ledger)
    requires LedgerValid(l) && l.state.batchId + |ops| <= U64_MAX
    ensures LedgerValid(r)
    ensures l.used.Keys <= r.used.Keys
    ensures l.state.batchId <= r.state.batchId <= l.state.batchId + |ops|
    decreases |ops|
  {
    if |ops| == 0 then l
    else
      var next := match Step(H, l, ops[0]) case Ok(n) => n case Err(_) => l;
      Run(H, next, ops[1..])
  }

  /** The instructions of `ops` that succeed when run from `l`, in order. */
  function Succeeded(H: Hasher, l: Ledger, ops: seq<Instruction>): seq<Instruction>
    requires LedgerValid(l) && l.state.batchId + |ops| <= U64_MAX
    decreases |ops|
  {
    if |ops| == 0 then []
    else match Step(H, l, ops[0])
      case Ok(n) => [ops[0]] + Succeeded(H, n, ops[1..])
      case Err(_) => Succeeded(H, l, ops[1..])
  }

  /** How many of `ixs` settle commitment `c`. */
  function SettlementsOf(ixs: seq<Instruction>, c: Bytes32): nat {
    if |ixs| == 0 then 0
    else (if ixs[0].SettleIx? && ixs[0].commitment == c then 1 else 0) + SettlementsOf(ixs[1..], c)
  }

  /** The replay invariant: along any run, a commitment is settled at most
      once, and never if it had been settled before the run. */
  lemma {:induction false} SettleAtMostOnce(H: Hasher, l: Ledger, ops: seq<Instruction>, c: Bytes32)
    requires LedgerValid(l) && l.state.batchId + |ops| <= U64_MAX
    ensures SettlementsOf(Succeeded(H, l, ops), c) <= 1
    ensures c in l.used ==> SettlementsOf(Succeeded(H, l, ops), c) == 0
    decreases |ops|
  {
    if |ops| > 0 {
      match Step(H, l, ops[0])
      case Ok(n) =>
        SettleAtMostOnce(H, n, ops[1..], c);
        var rest := Succeeded(H, n, ops[1..]);
        assert Succeeded(H, l, ops) == [ops[0]] + rest;
        assert ([ops[0]] + rest)[1..] == rest;
      case Err(_) =>
        SettleAtMostOnce(H, l, ops[1..], c);
    }
  }

  /** A life cycle of the settlement program: a stranger cannot rotate the
      root, becomes able to once added as an executor, and a commitment
      proved against the new root settles exactly once. */
  lemma RotateAndSettleScenario(H: Hasher, a: Bytes32, b: Bytes32, root: Bytes32, leaf: Bytes32,
                                proof: seq<Bytes32>, index: u64, now: i64, bump: u8)
    requires a != b && root != ZERO32
    requires 0 < |proof| <= MAX_PROOF_LENGTH && ComputeRoot(H, leaf, proof, index) == root
    ensures var l0 := Initialize(a, bump);
      && UpdateRoot(l0, b, root, now, bump) == Err(Unauthorized)
      && AddExecutor(l0.state, a, b).Ok?
      && var l1 := l0.(state := AddExecutor(l0.state, a, b).value);
      && UpdateRoot(l1, b, root, now, bump).Ok?
      && var l2 := UpdateRoot(l1, b, root, now, bump).value;
      && l2.state.batchId == 1
      && Settle(H, l2, b, leaf, proof, index, now, bump).Ok?
      && Settle(H, Settle(H, l2, b, leaf, proof, index, now, bump).value, b, leaf, proof, index, now, bump)
         == Err(AccountAlreadyInUse)
  {
    var l0 := Initialize(a, bump);
    assert !IsExecutor(l0.state, b);
    var l1 := l0.(state := AddExecutor(l0.state, a, b).value);
    assert IsExecutor(l1.state, b) by {
      assert Live(l1.state) == [b];
    }
  }
}

=== FILE: settlement_state.dfy ===
/** Account records of the settlement program: the singleton settlement
    state with its bounded executor array, the per-commitment replay record
    and the per-batch root history record, together with their on-chain
    (Borsh) layouts and the `LEN` space constants. */
module SettlementAccounts {
  import opened Bytes

  const MAX_EXECUTORS: nat := 10
  const MAX_PROOF_LENGTH: nat := 32

  /** The fixed `[Pubkey; MAX_EXECUTORS]` array. */
  type ExecutorSlots = s: seq<Bytes32> | |s| == MAX_EXECUTORS witness [ZERO32, ZERO32, ZERO32, ZERO32, ZERO32, ZERO32, ZERO32, ZERO32, ZERO32, ZERO32]

  datatype SettlementState = SettlementState(
    authority: Bytes32,
    pendingAuthority: Bytes32,
    currentRoot: Bytes32,
    batchId: u64,
    executorCount: u8,
    executors: ExecutorSlots,
    bump: u8)

  /** The replay record created at the address derived from the commitment. */
  datatype UsedCommitment = UsedCommitment(
    commitment: Bytes32,
    batchId: u64,
    settledAt: i64,
    executor: Bytes32,
    bump: u8)

  /** The history record created at the address derived from the batch id. */
  datatype BatchRoot = BatchRoot(
    batchId: u64,
    root: Bytes32,
    createdAt: i64,
    executor: Bytes32,
    bump: u8)

  /** The live executors: the first `executorCount` slots. */
  function Live(s: SettlementState): seq<Bytes32>
    requires s.executorCount <= MAX_EXECUTORS
  {
    s.executors[..s.executorCount]
  }

  /** The loop `for i in from..count { if slots[i] == key { return true } }`. */
  function ScanSlots(slots: seq<Bytes32>, count: nat, key: Bytes32, from: nat): (found: bool)
    requires from <= count <= |slots|
    ensures found <==> key in slots[from..count]
    decreases count - from
  {
    if from == count then false
    else if slots[from] == key then true
    else ScanSlots(slots, count, key, from + 1)
  }

  /** `is_executor`: the authority, or a key in one of the first
      `executorCount` slots. Slots at or beyond the count are never read. */
  function IsExecutor(s: SettlementState, key: Bytes32): (r: bool)
    requires s.executorCount <= MAX_EXECUTORS
    ensures r <==> key == s.authority || key in Live(s)
  {
    if key == s.authority then true
    else ScanSlots(s.executors, s.executorCount, key, 0)
  }

  /** The first position of `key` in `xs`, as the source's `find` loop computes it. */
  function IndexOf(xs: seq<Bytes32>, key: Bytes32): (r: Option<nat>)
    ensures r.None? <==> key !in xs
    ensures r.Some? ==> r.value < |xs| && xs[r.value] == key && key !in xs[..r.value]
  {
    if |xs| == 0 then None
    else if xs[0] == key then Some(0)
    else match IndexOf(xs[1..], key)
      case None => None
      case Some(j) =>
        assert xs[..j + 1] == [xs[0]] + xs[1..][..j];
        Some(j + 1)
  }

  /** The executor-array invariant that `add_executor` and `remove_executor`
      maintain: a bounded count, no duplicate among the live executors, and
      every slot at or beyond the count holding the default key. */
  ghost predicate ExecutorsValid(s: SettlementState) {
    && s.executorCount <= MAX_EXECUTORS
    && (forall i, j :: 0 <= i < j < s.executorCount ==> s.executors[i] != s.executors[j])
    && (forall i :: s.executorCount <= i < MAX_EXECUTORS ==> s.executors[i] == ZERO32)
  }

  // ---- On-chain layout (Borsh after the 8-byte account discriminator) ----

  const SETTLEMENT_STATE_LEN: nat := DISCRIMINATOR_LEN + 32 + 32 + 32 + 8 + 1 + 32 * MAX_EXECUTORS + 1
  const USED_COMMITMENT_LEN: nat := DISCRIMINATOR_LEN + 32 + 8 + 8 + 32 + 1
  const BATCH_ROOT_LEN: nat := DISCRIMINATOR_LEN + 8 + 32 + 8 + 32 + 1

  /** The Borsh encoding of a fixed array of keys: the keys back to back. */
  function Concat(keys: seq<Bytes32>): (r: seq<byte>)
    ensures |r| == 32 * |keys|
  {
    if |keys| == 0 then [] else keys[0] + Concat(keys[1..])
  }

  /** Key `i` of the array occupies bytes `32 * i` to `32 * i + 32`. */
  lemma {:induction false} ConcatSlices(keys: seq<Bytes32>, i: nat)
    requires i < |keys|
    ensures Concat(keys)[32 * i .. 32 * i + 32] == keys[i]
  {
    if i > 0 {
      ConcatSlices(keys[1..], i - 1);
      var rest := Concat(keys[1..]);
      assert Concat(keys)[32 * i .. 32 * i + 32] == rest[32 * (i - 1) .. 32 * (i - 1) + 32];
    }
  }

  function EncodeSettlementState(disc: seq<byte>, s: SettlementState): (r: seq<byte>)
    requires |disc| == DISCRIMINATOR_LEN
    ensures |r| == SETTLEMENT_STATE_LEN == 434
    ensures r[..8] == disc && r[8..40] == s.authority && r[40..72] == s.pendingAuthority
    ensures r[72..104] == s.currentRoot
    ensures DecodeLE(r[104..112]) == s.batchId && r[112] == s.executorCount
    ensures r[113..433] == Concat(s.executors) && r[433] == s.bump
  {
    var r := disc + s.authority + s.pendingAuthority + s.currentRoot + U64Bytes(s.batchId)
      + [s.executorCount] + Concat(s.executors) + [s.bump];
    assert r[8..40] == s.authority;
    assert r[40..72] == s.pendingAuthority;
    assert r[72..104] == s.currentRoot;
    assert r[104..112] == U64Bytes(s.batchId);
    assert r[113..433] == Concat(s.executors);
    r
  }

  function EncodeUsedCommitment(disc: seq<byte>, u: UsedCommitment): (r: seq<byte>)
    requires |disc| == DISCRIMINATOR_LEN
    ensures |r| == USED_COMMITMENT_LEN == 89
    ensures r[8..40] == u.commitment && DecodeLE(r[40..48]) == u.batchId
    ensures DecodeI64(r[48..56]) == u.settledAt && r[56..88] == u.executor
    ensures r[..8] == disc && r[88] == u.bump
  {
    var r := disc + u.commitment + U64Bytes(u.batchId) + I64Bytes(u.settledAt) + u.executor + [u.bump];
    assert r[8..40] == u.commitment;
    assert r[40..48] == U64Bytes(u.batchId);
    assert r[48..56] == I64Bytes(u.settledAt);
    assert r[56..88] == u.executor;
    r
  }

  function EncodeBatchRoot(disc: seq<byte>, b: BatchRoot): (r: seq<byte>)
    requires |disc| == DISCRIMINATOR_LEN
    ensures |r| == BATCH_ROOT_LEN == 89
    ensures DecodeLE(r[8..16]) == b.batchId && r[16..48] == b.root
    ensures DecodeI64(r[48..56]) == b.createdAt && r[56..88] == b.executor
    ensures r[..8] == disc && r[88] == b.bump
  {
    var r := disc + U64Bytes(b.batchId) + b.root + I64Bytes(b.createdAt) + b.executor + [b.bump];
    assert r[8..16] == U64Bytes(b.batchId);
    assert r[16..48] == b.root;
    assert r[48..56] == I64Bytes(b.createdAt);
    assert r[56..88] == b.executor;
    r
  }
}

=== FILE: vault.dfy ===
/** The custody vault's instructions, each an atomic step from a ledger (the
    vault state plus the deposit receipts and withdrawal records the program
    has created) to a new ledger or an error.

    The movement of value itself (the system-program transfer, the SPL token
    transfer and the direct lamport adjustment) is outside the model: each
    instruction that moves value takes `transferOk`, whether that movement
    succeeded. A failed movement fails the whole instruction. */
module Vault {
  import opened Bytes
  import opened VaultAccounts

  datatype VaultError =
    // the program's own errors, in declaration order
    | Unauthorized
    | VaultPaused
    | CommitmentAlreadyUsed
    | InsufficientBalance
    | InvalidAmount
    | InvalidRecipient
    | NoPendingTransfer
    | InvalidPendingAuthority
    | Overflow
    | InvalidCommitment
    // raised by the host or by a transfer, outside the handler's own checks
    | AccountAlreadyInUse
    | ConstraintHasOne
    | TransferFailed

  /** The vault state together with the `DepositRecord` accounts, keyed by the
      nonce in their address, and the `UsedCommitment` accounts, keyed by the
      commitment in their address. Both withdrawal paths share the latter. */
  datatype Ledger = Ledger(
    state: VaultState,
    deposits: map<u64, DepositRecord>,
    used: map<Bytes32, UsedCommitment>)

  /** What every reachable ledger satisfies: one receipt per nonce from 1 to
      `depositNonce`, each carrying its own nonce, and each withdrawal record
      stored under its own commitment. */
  ghost predicate LedgerValid(l: Ledger) {
    && (forall n :: n in l.deposits <==> 1 <= n <= l.state.depositNonce)
    && (forall n :: n in l.deposits ==> l.deposits[n].nonce == n)
    && (forall c :: c in l.used ==> l.used[c].commitment == c)
  }

  // ---- The deposit commitment ----

  /** The ASCII bytes of "SIP_DEPOSIT". */
  const DEPOSIT_TAG: seq<byte> := [83, 73, 80, 95, 68, 69, 80, 79, 83, 73, 84]

  lemma DepositTagIsAscii()
    ensures |DEPOSIT_TAG| == |"SIP_DEPOSIT"|
    ensures forall i :: 0 <= i < |DEPOSIT_TAG| ==> DEPOSIT_TAG[i] == "SIP_DEPOSIT"[i] as int
  {
  }

  /** The bytes hashed by `compute_deposit_commitment`: the tag, the depositor,
      the amount, the mint, the nonce and the timestamp, the integers little
      endian and the timestamp in two's complement. */
  function DepositPreimage(depositor: Bytes32, amount: u64, mint: Bytes32, nonce: u64, timestamp: i64)
    : (r: seq<byte>)
    ensures |r| == 99
  {
    DEPOSIT_TAG + depositor + U64Bytes(amount) + mint + U64Bytes(nonce) + I64Bytes(timestamp)
  }

  /** The commitment is the hash of a preimage from which every field can be
      read back, so two deposits that differ in any field (the nonce in
      particular) hash different strings. */
  function ComputeDepositCommitment(H: Hasher, depositor: Bytes32, amount: u64, mint: Bytes32, nonce: u64,
                                    timestamp: i64): (r: Bytes32)
    ensures var p := DepositPreimage(depositor, amount, mint, nonce, timestamp);
            && r == H(p)
            && ParseDepositPreimage(p) == Some(DepositFields(depositor, amount, mint, nonce, timestamp))
  {
    DepositPreimageRoundTrip(depositor, amount, mint, nonce, timestamp);
    H(DepositPreimage(depositor, amount, mint, nonce, timestamp))
  }

  datatype DepositFields = DepositFields(depositor: Bytes32, amount: u64, mint: Bytes32, nonce: u64, timestamp: i64)

  /** Reads the fields back out of a 99-byte preimage; `None` for anything
      that does not have the preimage's length and tag. */
  function ParseDepositPreimage(p: seq<byte>): Option<DepositFields> {
    if |p| != 99 || p[..11] != DEPOSIT_TAG then None
    else
      Pow256Of8();
      Some(DepositFields(p[11..43], DecodeLE(p[43..51]), p[51..83], DecodeLE(p[83..91]), DecodeI64(p[91..99])))
  }

  /** Parsing recovers every field the serialiser wrote. */
  lemma DepositPreimageRoundTrip(depositor: Bytes32, amount: u64, mint: Bytes32, nonce: u64, timestamp: i64)
    ensures ParseDepositPreimage(DepositPreimage(depositor, amount, mint, nonce, timestamp))
         == Some(DepositFields(depositor, amount, mint, nonce, timestamp))
  {
    var q := DEPOSIT_TAG + depositor + U64Bytes(amount) + mint + U64Bytes(nonce);
    var p := DepositPreimage(depositor, amount, mint, nonce, timestamp);
    assert p == q + I64Bytes(timestamp) && |q| == 91;
    assert p[..91] == q;
    assert p[..11] == DEPOSIT_TAG;
    assert p[11..43] == depositor;
    assert p[43..51] == U64Bytes(amount);
    assert p[51..83] == mint;
    assert p[83..91] == U64Bytes(nonce);
    assert p[91..99] == I64Bytes(timestamp);
  }

  /** Every string the parser accepts is the preimage of the fields it reads. */
  lemma ParseThenSerialise(p: seq<byte>)
    requires ParseDepositPreimage(p).Some?
    ensures var f := ParseDepositPreimage(p).value;
            DepositPreimage(f.depositor, f.amount, f.mint, f.nonce, f.timestamp) == p
  {
    var f := ParseDepositPreimage(p).value;
    U64BytesOfDecode(p[43..51]);
    U64BytesOfDecode(p[83..91]);
    I64BytesOfDecode(p[91..99]);
    assert p[..11] + p[11..43] == p[..43];
    assert p[..43] + p[43..51] == p[..51];
    assert p[..51] + p[51..83] == p[..83];
    assert p[..83] + p[83..91] == p[..91];
    assert p[..91] + p[91..99] == p;
    calc {
      DepositPreimage(f.depositor, f.amount, f.mint, f.nonce, f.timestamp);
      p[..11] + p[11..43] + p[43..51] + p[51..83] + p[83..91] + p[91..99];
      p;
    }
  }

  /** Two deposits with different fields (in particular different nonces)
      hash different preimages. */
  lemma DepositPreimageInjective(a: DepositFields, b: DepositFields)
    requires DepositPreimage(a.depositor, a.amount, a.mint, a.nonce, a.timestamp)
          == DepositPreimage(b.depositor, b.amount, b.mint, b.nonce, b.timestamp)
    ensures a == b
  {
    DepositPreimageRoundTrip(a.depositor, a.amount, a.mint, a.nonce, a.timestamp);
    DepositPreimageRoundTrip(b.depositor, b.amount, b.mint, b.nonce, b.timestamp);
  }

  // ---- Instructions ----

  /** `initialize`: the signer is both authority and settlement key; the
      vault starts empty and unpaused. */
  function Initialize(authority: Bytes32, bump: u8): (l: Ledger)
    ensures LedgerValid(l)
    ensures forall k :: IsAuthorized(l.state, k) <==> k == authority
    ensures l.state.solBalance == 0 && !l.state.paused && l.state.pendingAuthority == ZERO32
    ensures l.state.depositNonce == 0 && l.state.withdrawalNonce == 0 && l.state.bump == bump
    ensures l.deposits == map[] && l.used == map[]
  {
    Ledger(VaultState(authority, ZERO32, authority, 0, 0, 0, false, bump), map[], map[])
  }

  /** The receipt written for deposit number `nonce`. */
  function Receipt(H: Hasher, depositor: Bytes32, amount: u64, mint: Bytes32, now: i64, nonce: u64, bump: u8)
    : DepositRecord
  {
    DepositRecord(ComputeDepositCommitment(H, depositor, amount, mint, nonce, now), depositor, amount, mint, now,
                  nonce, bump)
  }

  /** `deposit_native`. The receipt account for nonce `depositNonce + 1` is
      created before the handler runs; then paused, then a zero amount, then
      the transfer, then the checked balance addition. */
  function DepositNative(H: Hasher, l: Ledger, depositor: Bytes32, amount: u64, now: i64, bump: u8,
                         transferOk: bool): (r: Result<Ledger, VaultError>)
    requires l.state.depositNonce < U64_MAX
    ensures l.state.depositNonce + 1 in l.deposits ==> r == Err(AccountAlreadyInUse)
    ensures l.state.depositNonce + 1 !in l.deposits && l.state.paused ==> r == Err(VaultPaused)
    ensures l.state.depositNonce + 1 !in l.deposits && !l.state.paused && amount == 0 ==> r == Err(InvalidAmount)
    ensures (l.state.depositNonce + 1 !in l.deposits && !l.state.paused && amount > 0 && transferOk
             && l.state.solBalance + amount > U64_MAX) ==> r == Err(Overflow)
    ensures (l.state.depositNonce + 1 !in l.deposits && !l.state.paused && amount > 0 && !transferOk)
            ==> r == Err(TransferFailed)
    ensures r.Ok? <==>
      && l.state.depositNonce + 1 !in l.deposits && !l.state.paused && amount > 0 && transferOk
      && l.state.solBalance + amount <= U64_MAX
    ensures r.Ok? ==>
      var n := l.state.depositNonce + 1;
      && r.value.state == l.state.(depositNonce := n, solBalance := l.state.solBalance + amount)
      && n in r.value.deposits && r.value.deposits == l.deposits[n := r.value.deposits[n]]
      && r.value.deposits[n]
         == DepositRecord(ComputeDepositCommitment(H, depositor, amount, ZERO32, n, now), depositor, amount, ZERO32,
                          now, n, bump)
      && IsNativeDeposit(r.value.deposits[n])
      && r.value.used == l.used
  {
    var n := l.state.depositNonce + 1;
    if n in l.deposits then Err(AccountAlreadyInUse)
    else if l.state.paused then Err(VaultPaused)
    else if amount == 0 then Err(InvalidAmount)
    else if !transferOk then Err(TransferFailed)
    else if l.state.solBalance + amount > U64_MAX then Err(Overflow)
    else
      Ok(Ledger(
        l.state.(depositNonce := n, solBalance := l.state.solBalance + amount),
        l.deposits[n := Receipt(H, depositor, amount, ZERO32, now, n, bump)],
        l.used))
  }

  /** `deposit_token`: the same guards; only the nonce moves and the receipt
      records the depositor's token mint. The tracked SOL balance is not
      touched. */
  function DepositToken(H: Hasher, l: Ledger, depositor: Bytes32, amount: u64, mint: Bytes32, now: i64, bump: u8,
                        transferOk: bool): (r: Result<Ledger, VaultError>)
    requires l.state.depositNonce < U64_MAX
    ensures l.state.depositNonce + 1 in l.deposits ==> r == Err(AccountAlreadyInUse)
    ensures l.state.depositNonce + 1 !in l.deposits && l.state.paused ==> r == Err(VaultPaused)
    ensures l.state.depositNonce + 1 !in l.deposits && !l.state.paused && amount == 0 ==> r == Err(InvalidAmount)
    ensures (l.state.depositNonce + 1 !in l.deposits && !l.state.paused && amount > 0 && !transferOk)
            ==> r == Err(TransferFailed)
    ensures r.Ok? <==> l.state.depositNonce + 1 !in l.deposits && !l.state.paused && amount > 0 && transferOk
    ensures r.Ok? ==>
      var n := l.state.depositNonce + 1;
      && r.value.state == l.state.(depositNonce := n)
      && n in r.value.deposits && r.value.deposits == l.deposits[n := r.value.deposits[n]]
      && r.value.deposits[n]
         == DepositRecord(ComputeDepositCommitment(H, depositor, amount, mint, n, now), depositor, amount, mint,
                          now, n, bump)
      && r.value.used == l.used
  {
    var n := l.state.depositNonce + 1;
    if n in l.deposits then Err(AccountAlreadyInUse)
    else if l.state.paused then Err(VaultPaused)
    else if amount == 0 then Err(InvalidAmount)
    else if !transferOk then Err(TransferFailed)
    else
      Ok(Ledger(
        l.state.(depositNonce := n),
        l.deposits[n := Receipt(H, depositor, amount, mint, now, n, bump)],
        l.used))
  }

  /** `withdraw_native`. The withdrawal record at the address derived from
      the commitment is created before the handler runs; then authorization,
      pause, a zero amount and the tracked balance are checked, in that order. */
  function WithdrawNative(l: Ledger, executor: Bytes32, commitment: Bytes32, amount: u64, recipient: Bytes32,
                          now: i64, bump: u8, transferOk: bool): (r: Result<Ledger, VaultError>)
    requires l.state.withdrawalNonce < U64_MAX
    ensures commitment in l.used ==> r == Err(AccountAlreadyInUse)
    ensures commitment !in l.used && !IsAuthorized(l.state, executor) ==> r == Err(Unauthorized)
    ensures commitment !in l.used && IsAuthorized(l.state, executor) && l.state.paused ==> r == Err(VaultPaused)
    ensures commitment !in l.used && IsAuthorized(l.state, executor) && !l.state.paused && amount == 0
            ==> r == Err(InvalidAmount)
    ensures (commitment !in l.used && IsAuthorized(l.state, executor) && !l.state.paused && amount > 0
             && l.state.solBalance < amount) ==> r == Err(InsufficientBalance)
    ensures (commitment !in l.used && IsAuthorized(l.state, executor) && !l.state.paused
             && 0 < amount <= l.state.solBalance && !transferOk) ==> r == Err(TransferFailed)
    ensures r.Ok? <==>
      && commitment !in l.used && IsAuthorized(l.state, executor) && !l.state.paused
      && 0 < amount <= l.state.solBalance && transferOk
    ensures r.Ok? ==>
      && r.value.state == l.state.(solBalance := l.state.solBalance - amount,
                                   withdrawalNonce := l.state.withdrawalNonce + 1)
      && r.value.used == l.used[commitment := UsedCommitment(commitment, now, executor, amount, recipient, bump)]
      && r.value.deposits == l.deposits
  {
    if commitment in l.used then Err(AccountAlreadyInUse)
    else if !IsAuthorized(l.state, executor) then Err(Unauthorized)
    else if l.state.paused then Err(VaultPaused)
    else if amount == 0 then Err(InvalidAmount)
    else if l.state.solBalance < amount then Err(InsufficientBalance)
    else if !transferOk then Err(TransferFailed)
    else
      Ok(Ledger(
        l.state.(solBalance := l.state.solBalance - amount, withdrawalNonce := l.state.withdrawalNonce + 1),
        l.deposits,
        l.used[commitment := UsedCommitment(commitment, now, executor, amount, recipient, bump)]))
  }

  /** `withdraw_token`: the same record and guards but no balance check; only
      the withdrawal nonce moves. */
  function WithdrawToken(l: Ledger, executor: Bytes32, commitment: Bytes32, amount: u64, recipient: Bytes32,
                         now: i64, bump: u8, transferOk: bool): (r: Result<Ledger, VaultError>)
    requires l.state.withdrawalNonce < U64_MAX
    ensures commitment in l.used ==> r == Err(AccountAlreadyInUse)
    ensures commitment !in l.used && !IsAuthorized(l.state, executor) ==> r == Err(Unauthorized)
    ensures commitment !in l.used && IsAuthorized(l.state, executor) && l.state.paused ==> r == Err(VaultPaused)
    ensures commitment !in l.used && IsAuthorized(l.state, executor) && !l.state.paused && amount == 0
            ==> r == Err(InvalidAmount)
    ensures (commitment !in l.used && IsAuthorized(l.state, executor) && !l.state.paused && amount > 0
             && !transferOk) ==> r == Err(TransferFailed)
    ensures r.Ok? <==>
      commitment !in l.used && IsAuthorized(l.state, executor) && !l.state.paused && amount > 0 && transferOk
    ensures r.Ok? ==>
      && r.value.state == l.state.(withdrawalNonce := l.state.withdrawalNonce + 1)
      && r.value.used == l.used[commitment := UsedCommitment(commitment, now, executor, amount, recipient, bump)]
      && r.value.deposits == l.deposits
  {
    if commitment in l.used then Err(AccountAlreadyInUse)
    else if !IsAuthorized(l.state, executor) then Err(Unauthorized)
    else if l.state.paused then Err(VaultPaused)
    else if amount == 0 then Err(InvalidAmount)
    else if !transferOk then Err(TransferFailed)
    else
      Ok(Ledger(
        l.state.(withdrawalNonce := l.state.withdrawalNonce + 1),
        l.deposits,
        l.used[commitment := UsedCommitment(commitment, now, executor, amount, recipient, bump)]))
  }

  /** `set_settlement`: authority only; any key is accepted. */
  function SetSettlement(s: VaultState, signer: Bytes32, settlement: Bytes32): (r: Result<VaultState, VaultError>)
    ensures r.Ok? <==> signer == s.authority
    ensures r.Err? ==> r.error == ConstraintHasOne
    ensures r.Ok? ==> r.value == s.(settlement := settlement)
  {
    if signer != s.authority then Err(ConstraintHasOne) else Ok(s.(settlement := settlement))
  }

  /** `transfer_authority`: authority only; refuses the default key. There is
      no instruction that cancels a pending transfer. */
  function TransferAuthority(s: VaultState, signer: Bytes32, newAuthority: Bytes32): (r: Result<VaultState, VaultError>)
    ensures signer != s.authority ==> r == Err(ConstraintHasOne)
    ensures signer == s.authority && newAuthority == ZERO32 ==> r == Err(InvalidPendingAuthority)
    ensures r.Ok? <==> signer == s.authority && newAuthority != ZERO32
    ensures r.Ok? ==> r.value == s.(pendingAuthority := newAuthority)
  {
    if signer != s.authority then Err(ConstraintHasOne)
    else if newAuthority == ZERO32 then Err(InvalidPendingAuthority)
    else Ok(s.(pendingAuthority := newAuthority))
  }

  /** `accept_authority`: needs a pending transfer, then the pending key as signer. */
  function AcceptAuthority(s: VaultState, signer: Bytes32): (r: Result<VaultState, VaultError>)
    ensures s.pendingAuthority == ZERO32 ==> r == Err(NoPendingTransfer)
    ensures s.pendingAuthority != ZERO32 && signer != s.pendingAuthority ==> r == Err(Unauthorized)
    ensures r.Ok? <==> s.pendingAuthority != ZERO32 && signer == s.pendingAuthority
    ensures r.Ok? ==> r.value == s.(authority := signer, pendingAuthority := ZERO32)
  {
    if s.pendingAuthority == ZERO32 then Err(NoPendingTransfer)
    else if signer != s.pendingAuthority then Err(Unauthorized)
    else Ok(s.(authority := s.pendingAuthority, pendingAuthority := ZERO32))
  }

  /** `pause` and `unpause`: authority only; set the flag. */
  function SetPaused(s: VaultState, signer: Bytes32, paused: bool): (r: Result<VaultState, VaultError>)
    ensures r.Ok? <==> signer == s.authority
    ensures r.Err? ==> r.error == ConstraintHasOne
    ensures r.Ok? ==> r.value == s.(paused := paused)
  {
    if signer != s.authority then Err(ConstraintHasOne) else Ok(s.(paused := paused))
  }

  /** `pause`: the authority, and only the authority, stops deposits and
      withdrawals; nothing but the flag changes. */
  function Pause(s: VaultState, signer: Bytes32): (r: Result<VaultState, VaultError>)
    ensures r.Ok? <==> signer == s.authority
    ensures r.Err? ==> r.error == ConstraintHasOne
    ensures r.Ok? ==> r.value.paused && r.value.(paused := s.paused) == s
  {
    SetPaused(s, signer, true)
  }

  /** `unpause`: the authority, and only the authority, lifts the pause;
      nothing but the flag changes. */
  function Unpause(s: VaultState, signer: Bytes32): (r: Result<VaultState, VaultError>)
    ensures r.Ok? <==> signer == s.authority
    ensures r.Err? ==> r.error == ConstraintHasOne
    ensures r.Ok? ==> !r.value.paused && r.value.(paused := s.paused) == s
  {
    SetPaused(s, signer, false)
  }

  /** `set_settlement` decides who besides the authority may withdraw: the
      new key is authorised at once and a replaced key that is not the
      authority no longer is. */
  lemma SetSettlementGovernsWithdrawal(s: VaultState, newKey: Bytes32, other: Bytes32)
    requires other != s.authority && other != newKey
    ensures IsAuthorized(SetSettlement(s, s.authority, newKey).value, newKey)
    ensures !IsAuthorized(SetSettlement(s, s.authority, newKey).value, other)
  {
  }

  /** Pausing and then unpausing an unpaused vault gives back the same state. */
  lemma PauseUnpauseRestores(s: VaultState)
    requires !s.paused
    ensures Pause(s, s.authority).Ok? && Unpause(Pause(s, s.authority).value, s.authority) == Ok(s)
  {
  }

  /** The two-step handover: after the authority proposes `next`, only `next`
      can accept; accepting makes `next` the authority, clears the pending key
      and takes the administrative instructions away from the old authority.
      With no cancel instruction, proposing another key is the only way to
      withdraw a proposal, and it does. */
  lemma TwoStepHandover(s: VaultState, next: Bytes32, other: Bytes32)
    requires next != ZERO32 && other != next && s.authority != next
    ensures var p := TransferAuthority(s, s.authority, next);
      && p.Ok?
      && AcceptAuthority(p.value, other) == Err(Unauthorized)
      && AcceptAuthority(p.value, next) == Ok(s.(authority := next, pendingAuthority := ZERO32))
      && Pause(AcceptAuthority(p.value, next).value, s.authority) == Err(ConstraintHasOne)
      && (other != ZERO32 ==> AcceptAuthority(TransferAuthority(p.value, s.authority, other).value, next)
                              == Err(Unauthorized))
  {
  }

  // ---- Runs of instructions ----

  datatype Instruction =
    | DepositNativeIx(depositor: Bytes32, amount: u64, now: i64, bump: u8, transferOk: bool)
    | DepositTokenIx(depositor: Bytes32, amount: u64, mint: Bytes32, now: i64, bump: u8, transferOk: bool)
    | WithdrawNativeIx(executor: Bytes32, commitment: Bytes32, amount: u64, recipient: Bytes32, now: i64, bump: u8,
                       transferOk: bool)
    | WithdrawTokenIx(executor: Bytes32, commitment: Bytes32, amount: u64, recipient: Bytes32, now: i64, bump: u8,
                      transferOk: bool)
    | SetSettlementIx(signer: Bytes32, settlement: Bytes32)
    | TransferAuthorityIx(signer: Bytes32, newAuthority: Bytes32)
    | AcceptAuthorityIx(signer: Bytes32)
    | PauseIx(signer: Bytes32)
    | UnpauseIx(signer: Bytes32)

  /** The change an instruction makes to the tracked SOL balance when it succeeds. */
  function NativeDelta(ix: Instruction): int {
    match ix
    case DepositNativeIx(_, amount, _, _, _) => amount
    case WithdrawNativeIx(_, _, amount, _, _, _, _) => -(amount as int)
    case _ => 0
  }

  predicate IsDeposit(ix: Instruction) {
    ix.DepositNativeIx? || ix.DepositTokenIx?
  }

  predicate IsWithdrawal(ix: Instruction) {
    ix.WithdrawNativeIx? || ix.WithdrawTokenIx?
  }

  /** A deposit that writes the receipt for the next nonce, and bumps the
      nonce to it, keeps the ledger valid. */
  lemma DepositKeepsValid(l: Ledger, r: Ledger)
    requires LedgerValid(l) && l.state.depositNonce < U64_MAX
    requires var n := l.state.depositNonce + 1;
      && r.state.depositNonce == n && n in r.deposits && r.deposits == l.deposits[n := r.deposits[n]]
      && r.deposits[n].nonce == n && r.used == l.used
    ensures LedgerValid(r)
  {
  }

  /** A withdrawal that records commitment `c` under its own key keeps the
      ledger valid. */
  lemma WithdrawKeepsValid(l: Ledger, r: Ledger, c: Bytes32)
    requires LedgerValid(l)
    requires r.state.depositNonce == l.state.depositNonce && r.deposits == l.deposits
    requires c in r.used && r.used == l.used[c := r.used[c]] && r.used[c].commitment == c
    ensures LedgerValid(r)
  {
  }

  /** Either deposit: the receipt for the next nonce is written and the
      balance moves by `NativeDelta`. */
  function DepositStep(H: Hasher, l: Ledger, ix: Instruction): (r: Result<Ledger, VaultError>)
    requires LedgerValid(l) && l.state.depositNonce < U64_MAX && IsDeposit(ix)
    ensures r.Ok? ==> LedgerValid(r.value) && r.value.used == l.used
    ensures r.Ok? ==> && r.value.state.solBalance == l.state.solBalance + NativeDelta(ix)
                      && r.value.state.depositNonce == l.state.depositNonce + 1
                      && r.value.state.withdrawalNonce == l.state.withdrawalNonce
  {
    match ix
    case DepositNativeIx(depositor, amount, now, bump, ok) =>
      var r := DepositNative(H, l, depositor, amount, now, bump, ok);
      if r.Ok? then DepositKeepsValid(l, r.value); r else r
    case DepositTokenIx(depositor, amount, mint, now, bump, ok) =>
      var r := DepositToken(H, l, depositor, amount, mint, now, bump, ok);
      if r.Ok? then DepositKeepsValid(l, r.value); r else r
  }

  /** Either withdrawal: the commitment, unused before, gets its record and
      the balance moves by `NativeDelta`. */
  function WithdrawStep(l: Ledger, ix: Instruction): (r: Result<Ledger, VaultError>)
    requires LedgerValid(l) && l.state.withdrawalNonce < U64_MAX && IsWithdrawal(ix)
    ensures r.Ok? ==> LedgerValid(r.value) && l.used.Keys <= r.value.used.Keys
    ensures r.Ok? ==> ix.commitment !in l.used && ix.commitment in r.value.used
    ensures r.Ok? ==> && r.value.state.solBalance == l.state.solBalance + NativeDelta(ix)
                      && r.value.state.depositNonce == l.state.depositNonce
                      && r.value.state.withdrawalNonce == l.state.withdrawalNonce + 1
  {
    match ix
    case WithdrawNativeIx(executor, c, amount, recipient, now, bump, ok) =>
      var r := WithdrawNative(l, executor, c, amount, recipient, now, bump, ok);
      if r.Ok? then WithdrawKeepsValid(l, r.value, c); r else r
    case WithdrawTokenIx(executor, c, amount, recipient, now, bump, ok) =>
      var r := WithdrawToken(l, executor, c, amount, recipient, now, bump, ok);
      if r.Ok? then WithdrawKeepsValid(l, r.value, c); r else r
  }

  /** The administrative instructions touch neither the balance, the
      nonces nor any receipt or withdrawal record. */
  function AdminStep(l: Ledger, ix: Instruction): (r: Result<Ledger, VaultError>)
    requires !IsDeposit(ix) && !IsWithdrawal(ix)
    ensures r.Ok? ==> r.value.deposits == l.deposits && r.value.used == l.used
    ensures r.Ok? ==> && r.value.state.solBalance == l.state.solBalance
                      && r.value.state.depositNonce == l.state.depositNonce
                      && r.value.state.withdrawalNonce == l.state.withdrawalNonce
  {
    var lift := (s: VaultState) => l.(state := s);
    match ix
    case SetSettlementIx(signer, settlement) => SetSettlement(l.state, signer, settlement).Map(lift)
    case TransferAuthorityIx(signer, newAuthority) => TransferAuthority(l.state, signer, newAuthority).Map(lift)
    case AcceptAuthorityIx(signer) => AcceptAuthority(l.state, signer).Map(lift)
    case PauseIx(signer) => Pause(l.state, signer).Map(lift)
    case UnpauseIx(signer) => Unpause(l.state, signer).Map(lift)
  }

  /** One instruction against a reachable ledger. A success moves the
      balance by exactly `NativeDelta`, each nonce by one exactly when it is
      a deposit or a withdrawal, and never forgets a withdrawal record. */
  function Step(H: Hasher, l: Ledger, ix: Instruction): (r: Result<Ledger, VaultError>)
    requires LedgerValid(l) && l.state.depositNonce < U64_MAX && l.state.withdrawalNonce < U64_MAX
    ensures r.Ok? ==> LedgerValid(r.value)
    ensures r.Ok? ==> r.value.state.solBalance == l.state.solBalance + NativeDelta(ix)
    ensures r.Ok? ==> r.value.state.depositNonce == l.state.depositNonce + (if IsDeposit(ix) then 1 else 0)
    ensures r.Ok? ==> r.value.state.withdrawalNonce == l.state.withdrawalNonce + (if IsWithdrawal(ix) then 1 else 0)
    ensures r.Ok? ==> l.used.Keys <= r.value.used.Keys
    ensures r.Ok? && IsWithdrawal(ix) ==> ix.commitment !in l.used && ix.commitment in r.value.used
  {
    if IsDeposit(ix) then DepositStep(H, l, ix)
    else if IsWithdrawal(ix) then WithdrawStep(l, ix)
    else AdminStep(l, ix)
  }

  /** The room left in both nonces for `k` more instructions. */
  ghost predicate NonceRoom(l: Ledger, k: nat) {
    l.state.depositNonce + k <= U64_MAX && l.state.withdrawalNonce + k <= U64_MAX
  }

  /** The ledger after running `ops` in order; a failed instruction leaves the
      ledger as it was. */
  function Run(H: Hasher, l: Ledger, ops: seq<Instruction>): (r: Ledger)
    requires LedgerValid(l) && NonceRoom(l, |ops|)
    ensures LedgerValid(r)
    decreases |ops|
  {
    if |ops| == 0 then l
    else
      var next := match Step(H, l, ops[0]) case Ok(n) => n case Err(_) => l;
      Run(H, next, ops[1..])
  }

  /** The instructions of `ops` that succeed when run from `l`, in order. */
  function Succeeded(H: Hasher, l: Ledger, ops: seq<Instruction>): seq<Instruction>
    requires LedgerValid(l) && NonceRoom(l, |ops|)
    decreases |ops|
  {
    if |ops| == 0 then []
    else match Step(H, l, ops[0])
      case Ok(n) => [ops[0]] + Succeeded(H, n, ops[1..])
      case Err(_) => Succeeded(H, l, ops[1..])
  }

  /** Native SOL deposited minus native SOL withdrawn by `ixs`. */
  function NetNative(ixs: seq<Instruction>): int {
    if |ixs| == 0 then 0 else NativeDelta(ixs[0]) + NetNative(ixs[1..])
  }

  function CountDeposits(ixs: seq<Instruction>): nat {
    if |ixs| == 0 then 0 else (if IsDeposit(ixs[0]) then 1 else 0) + CountDeposits(ixs[1..])
  }

  function CountWithdrawals(ixs: seq<Instruction>): nat {
    if |ixs| == 0 then 0 else (if IsWithdrawal(ixs[0]) then 1 else 0) + CountWithdrawals(ixs[1..])
  }

  /** How many of `ixs` withdraw against commitment `c`, on either path. */
  function WithdrawalsOf(ixs: seq<Instruction>, c: Bytes32): nat {
    if |ixs| == 0 then 0
    else (if IsWithdrawal(ixs[0]) && ixs[0].commitment == c then 1 else 0) + WithdrawalsOf(ixs[1..], c)
  }

  lemma SucceededCons(H: Hasher, l: Ledger, ops: seq<Instruction>)
    requires LedgerValid(l) && NonceRoom(l, |ops|) && |ops| > 0 && Step(H, l, ops[0]).Ok?
    ensures var rest := Succeeded(H, Step(H, l, ops[0]).value, ops[1..]);
            Succeeded(H, l, ops) == [ops[0]] + rest && ([ops[0]] + rest)[1..] == rest
  {
  }

  /** Balance conservation and nonce accounting along any run: the tracked
      balance moves by exactly the native deposits minus the native
      withdrawals that succeeded, and each nonce by the number of successful
      deposits or withdrawals. */
  lemma {:induction false} RunAccounting(H: Hasher, l: Ledger, ops: seq<Instruction>)
    requires LedgerValid(l) && NonceRoom(l, |ops|)
    ensures Run(H, l, ops).state.solBalance == l.state.solBalance + NetNative(Succeeded(H, l, ops))
    ensures Run(H, l, ops).state.depositNonce == l.state.depositNonce + CountDeposits(Succeeded(H, l, ops))
    ensures Run(H, l, ops).state.withdrawalNonce == l.state.withdrawalNonce + CountWithdrawals(Succeeded(H, l, ops))
    decreases |ops|
  {
    if |ops| > 0 {
      match Step(H, l, ops[0])
      case Ok(n) =>
        RunAccounting(H, n, ops[1..]);
        SucceededCons(H, l, ops);
      case Err(_) =>
        RunAccounting(H, l, ops[1..]);
    }
  }

  /** From a fresh vault, the tracked balance is exactly the native deposits
      minus the native withdrawals that succeeded. */
  lemma BalanceFromInitialize(H: Hasher, authority: Bytes32, bump: u8, ops: seq<Instruction>)
    requires |ops| <= U64_MAX
    ensures Run(H, Initialize(authority, bump), ops).state.solBalance
         == NetNative(Succeeded(H, Initialize(authority, bump), ops))
  {
    RunAccounting(H, Initialize(authority, bump), ops);
  }

  /** Replay protection shared by both withdrawal paths: along any run, a
      commitment is withdrawn against at most once, and never if it had been
      used before the run. */
  lemma {:induction false} WithdrawAtMostOnce(H: Hasher, l: Ledger, ops: seq<Instruction>, c: Bytes32)
    requires LedgerValid(l) && NonceRoom(l, |ops|)
    ensures WithdrawalsOf(Succeeded(H, l, ops), c) <= 1
    ensures c in l.used ==> WithdrawalsOf(Succeeded(H, l, ops), c) == 0
    decreases |ops|
  {
    if |ops| > 0 {
      match Step(H, l, ops[0])
      case Ok(n) =>
        WithdrawAtMostOnce(H, n, ops[1..], c);
        SucceededCons(H, l, ops);
      case Err(_) =>
        WithdrawAtMostOnce(H, l, ops[1..], c);
    }
  }

  /** A commitment withdrawn on one path cannot then be withdrawn on the other. */
  lemma NativeThenTokenRejected(l: Ledger, e1: Bytes32, e2: Bytes32, c: Bytes32, a1: u64, a2: u64,
                                r1: Bytes32, r2: Bytes32, now: i64, bump: u8, ok: bool)
    requires l.state.withdrawalNonce + 1 < U64_MAX
    requires WithdrawNative(l, e1, c, a1, r1, now, bump, ok).Ok?
    ensures WithdrawToken(WithdrawNative(l, e1, c, a1, r1, now, bump, ok).value, e2, c, a2, r2, now, bump, ok)
         == Err(AccountAlreadyInUse)
  {
  }

  /** A life cycle of the vault, from a fresh vault that the authority
      pauses: a deposit while paused fails; after unpausing, a
      deposit of 100 makes the balance 100; withdrawing 150 fails for want of
      balance; withdrawing 100 empties the vault; repeating that withdrawal
      with the same commitment is refused. */
  lemma DepositWithdrawScenario(H: Hasher, owner: Bytes32, user: Bytes32, token: Bytes32, recipient: Bytes32,
                                now: i64, bump: u8)
    ensures var l0 := Initialize(owner, bump);
      && Pause(l0.state, owner).Ok?
      && var lp := l0.(state := Pause(l0.state, owner).value);
      && DepositNative(H, lp, user, 100, now, bump, true) == Err(VaultPaused)
      && Unpause(lp.state, owner).Ok?
      && var lu := lp.(state := Unpause(lp.state, owner).value);
      && DepositNative(H, lu, user, 100, now, bump, true).Ok?
      && var ld := DepositNative(H, lu, user, 100, now, bump, true).value;
      && ld.state.solBalance == 100
      && WithdrawNative(ld, owner, token, 150, recipient, now, bump, true) == Err(InsufficientBalance)
      && WithdrawNative(ld, owner, token, 100, recipient, now, bump, true).Ok?
      && var lw := WithdrawNative(ld, owner, token, 100, recipient, now, bump, true).value;
      && lw.state.solBalance == 0
      && WithdrawNative(lw, owner, token, 100, recipient, now, bump, true) == Err(AccountAlreadyInUse)
  {
  }
}

=== FILE: vault_state.dfy ===
/** Account records of the custody vault: the singleton vault state, the
    per-commitment withdrawal record and the per-deposit receipt, with their
    on-chain (Borsh) layouts and `LEN` space constants. */
module VaultAccounts {
  import opened Bytes

  datatype VaultState = VaultState(
    authority: Bytes32,
    pendingAuthority: Bytes32,
    settlement: Bytes32,
    solBalance: u64,
    depositNonce: u64,
    withdrawalNonce: u64,
    paused: bool,
    bump: u8)

  /** `is_authorized`: the authority is always authorised to withdraw, and
      the only other key that is is the settlement key. The vault keeps no
      executor list. */
  function IsAuthorized(s: VaultState, key: Bytes32): (r: bool)
    ensures key == s.authority ==> r
    ensures key == s.settlement ==> r
    ensures r && key != s.authority ==> key == s.settlement
  {
    key == s.authority || key == s.settlement
  }

  /** The withdrawal record created at the address derived from the commitment. */
  datatype UsedCommitment = UsedCommitment(
    commitment: Bytes32,
    usedAt: i64,
    executor: Bytes32,
    amount: u64,
    recipient: Bytes32,
    bump: u8)

  /** The receipt created at the address derived from the deposit nonce. */
  datatype DepositRecord = DepositRecord(
    commitment: Bytes32,
    depositor: Bytes32,
    amount: u64,
    tokenMint: Bytes32,
    depositedAt: i64,
    nonce: u64,
    bump: u8)

  /** A receipt whose mint is the default key records native SOL. */
  predicate IsNativeDeposit(r: DepositRecord) {
    r.tokenMint == ZERO32
  }

  // ---- On-chain layout (Borsh after the 8-byte account discriminator) ----

  const VAULT_STATE_LEN: nat := DISCRIMINATOR_LEN + 32 + 32 + 32 + 8 + 8 + 8 + 1 + 1
  const USED_COMMITMENT_LEN: nat := DISCRIMINATOR_LEN + 32 + 8 + 32 + 8 + 32 + 1
  const DEPOSIT_RECORD_LEN: nat := DISCRIMINATOR_LEN + 32 + 32 + 8 + 32 + 8 + 8 + 1

  /** Borsh writes a `bool` as one byte, 0 or 1. */
  function BoolByte(b: bool): byte {
    if b then 1 else 0
  }

  function EncodeVaultState(disc: seq<byte>, s: VaultState): (r: seq<byte>)
    requires |disc| == DISCRIMINATOR_LEN
    ensures |r| == VAULT_STATE_LEN == 130
    ensures r[..8] == disc && r[8..40] == s.authority && r[40..72] == s.pendingAuthority
    ensures r[72..104] == s.settlement
    ensures DecodeLE(r[104..112]) == s.solBalance
    ensures DecodeLE(r[112..120]) == s.depositNonce && DecodeLE(r[120..128]) == s.withdrawalNonce
    ensures r[128] == 1 <==> s.paused
    ensures r[128] in {0, 1} && r[129] == s.bump
  {
    var r := disc + s.authority + s.pendingAuthority + s.settlement + U64Bytes(s.solBalance)
      + U64Bytes(s.depositNonce) + U64Bytes(s.withdrawalNonce) + [BoolByte(s.paused)] + [s.bump];
    assert r[8..40] == s.authority;
    assert r[40..72] == s.pendingAuthority;
    assert r[72..104] == s.settlement;
    assert r[104..112] == U64Bytes(s.solBalance);
    assert r[112..120] == U64Bytes(s.depositNonce);
    assert r[120..128] == U64Bytes(s.withdrawalNonce);
    r
  }

  function EncodeUsedCommitment(disc: seq<byte>, u: UsedCommitment): (r: seq<byte>)
    requires |disc| == DISCRIMINATOR_LEN
    ensures |r| == USED_COMMITMENT_LEN == 121
    ensures r[8..40] == u.commitment && DecodeI64(r[40..48]) == u.usedAt && r[48..80] == u.executor
    ensures DecodeLE(r[80..88]) == u.amount && r[88..120] == u.recipient
    ensures r[..8] == disc && r[120] == u.bump
  {
    var r := disc + u.commitment + I64Bytes(u.usedAt) + u.executor + U64Bytes(u.amount) + u.recipient + [u.bump];
    assert r[8..40] == u.commitment;
    assert r[40..48] == I64Bytes(u.usedAt);
    assert r[48..80] == u.executor;
    assert r[80..88] == U64Bytes(u.amount);
    assert r[88..120] == u.recipient;
    r
  }

  function EncodeDepositRecord(disc: seq<byte>, d: DepositRecord): (r: seq<byte>)
    requires |disc| == DISCRIMINATOR_LEN
    ensures |r| == DEPOSIT_RECORD_LEN == 129
    ensures r[8..40] == d.commitment && r[40..72] == d.depositor && DecodeLE(r[72..80]) == d.amount
    ensures r[80..112] == d.tokenMint && DecodeI64(r[112..120]) == d.depositedAt
    ensures DecodeLE(r[120..128]) == d.nonce
    ensures r[..8] == disc && r[128] == d.bump
  {
    var r := disc + d.commitment + d.depositor + U64Bytes(d.amount) + d.tokenMint
      + I64Bytes(d.depositedAt) + U64Bytes(d.nonce) + [d.bump];
    assert r[8..40] == d.commitment;
    assert r[40..72] == d.depositor;
    assert r[72..80] == U64Bytes(d.amount);
    assert r[80..112] == d.tokenMint;
    assert r[112..120] == I64Bytes(d.depositedAt);
    assert r[120..128] == U64Bytes(d.nonce);
    r
  }
}
